=== FILE: README.md ===
# delorean: the source-path pipeline, in Dafny

`delorean` (coon-js) is a command-line tool. It stages the JavaScript
sources of a Sencha Ext JS project into a `.deloreanbuild` folder, so
that Babel can transpile them there, and it points the project manifest
(`app.json` / `package.json`) at that folder. It can later point the
manifest back. This project models the pure string logic of `bin/bin.js`
that decides which directories are involved and how their manifest
entries are rewritten. It then proves properties of that logic.

The model covers three parts of `bin/bin.js`:

- **Source paths** (`getSourcePaths`):
  - For each field path in the rules file's `map`, the manifest list at that path is read.
  - Its entries are expanded twice. First `${toolkit.name}` is replaced by each toolkit name (`spreadTpl`). Then `${build.id}` is replaced by each build id.
  - Repeats are removed within that field (`visitEntries`).
  - The lists of all the fields are joined.
  - Each joined directory is cleaned up. The first `.deloreanbuild` is removed, and the first `${package.dir}` becomes `.`.
- **Manifest rewrite** (`changeProjectConfig`): every entry of every mapped field is rewritten.
  - When preparing, the staging folder is inserted after `${package.dir}`, or put in front of an entry that has no placeholder.
  - When reverting, the staging folder is stripped.
  - In both directions, runs of `/` are then collapsed.
- **Mode selection**: which of `--prepare` / `--revert` / help runs, and which rules file is read.

Modules:

| file | module | contents |
|---|---|---|
| `wrappers.dfy` | `Wrappers` | `Option` |
| `strings.dfy` | `Strings` | `indexOf` as `Find`; `replace` with a string pattern as `ReplaceFirst` (first occurrence only) |
| `unify.dfy` | `Separators` | `l8.unify(s, "/")` as `Unify` (collapse every run of `/` into one) |
| `markers.dfy` | `Markers` | the four literal markers and their character facts |
| `dedup.dfy` | `FirstSeen` | the `filter((el, i) => entries.indexOf(el) === i)` idiom as `Dedup` |
| `manifest.dfy` | `Manifest` | the rules file (`Config`) and the manifest's directory-list fields |
| `expand.dfy` | `Expand` | `spreadTpl`, the two expansion passes, `visitEntries` |
| `sourcepaths.dfy` | `SourcePaths` | `getSourcePaths` |
| `rewrite.dfy` | `Rewrite` | one entry of the `value.map` in `changeProjectConfig`, and its round trips |
| `project.dfy` | `ProjectConfig` | `changeProjectConfig` over all mapped fields |
| `cli.dfy` | `Cli` | option handling and dispatch |

Several library calls are stated assumptions, not models of visible code:

- `l8.unify(s, "/")` collapses runs of `/`.
- `l8.unchain(path, obj)` and `l8.chain(path, obj, value, true)` read and write one field per path expression. Distinct expressions name distinct fields.

The round-trip results speak of *clean* entries (`Rewrite.CleanEntry`): an entry is clean when it has no `.deloreanbuild` and no `//`, and either its first `${package.dir}` is directly followed by `/`, or it has no `${package.dir}` and does not start with `/`. These are the entries a project lists before staging, apart from the forms that staging cannot tell apart from another entry (see "Left out").

## Model

| member | source | states |
|---|---|---|
| Strings.Find | bin/bin.js:196 | `indexOf`: the answer is an occurrence with none before it, and it is None exactly when the pattern occurs nowhere |
| Strings.ReplaceFirst | bin/bin.js:199 | `replace` with a string pattern: a string without the pattern is unchanged; otherwise the length changes by `|rpl| - |pat|` |
| Strings.ReplaceFirstAt | bin/bin.js:199 | the string is the text before the first occurrence, the pattern and the text after; the replacement keeps both pieces |
| Strings.ReplaceFirstKeepsDisjoint | bin/bin.js:209-213 | replacing the first occurrence of one pattern keeps any occurrence of another pattern that does not overlap it |
| Expand.ReplaceEach | bin/bin.js:198-200 | one result per replacement, in replacement order, each with the first placeholder replaced |
| Expand.SpreadTpl | bin/bin.js:194-205 | an entry without the placeholder is the single result; an entry with it gives one entry per replacement, so an empty replacement list drops it |
| Expand.SpreadAllConcat | bin/bin.js:208-210 | the flattened expansion of a joined list is the joined expansions |
| Expand.SpreadAllIdentity | bin/bin.js:208-214 | a list with no placeholder passes through an expansion pass unchanged |
| Expand.FlattenCell | bin/bin.js:210 | in rows of equal width joined by `flat()`, cell (i, j) sits at offset i·width + j |
| Expand.SpreadAllGrid | bin/bin.js:208-214 | when every entry holds the placeholder, the pass output is a grid: entry i with replacement j at offset i·n + j |
| Expand.SpreadAllSize | bin/bin.js:208-214 | that grid has `|entries| * |replacements|` cells |
| Expand.SpreadAll | bin/bin.js:208-214 | with no replacements, a pass keeps exactly the entries that do not name its placeholder |
| Expand.Candidates | bin/bin.js:207-214 | with neither toolkits nor build ids, the candidates are exactly the entries naming neither placeholder |
| Expand.VisitEntries | bin/bin.js:207-219 | no repeats; exactly the candidates of both passes; order of first appearance among the candidates |
| Expand.ToolkitPassKeepsBuildId | bin/bin.js:208-214 | replacing `${toolkit.name}` never destroys a `${build.id}`, because the two placeholders cannot overlap |
| Expand.PlaceholdersApart | bin/bin.js:207-214 | occurrences of `${toolkit.name}` and `${build.id}` never overlap |
| Expand.BothPlaceholders | bin/bin.js:207-214 | an entry with both placeholders gives `|toolkits| * |builds|` candidates; the toolkit name varies in the outer position and the build id in the inner one |
| Expand.NoPlaceholders | bin/bin.js:207-219 | lists free of placeholders are only de-duplicated; a list without repeats comes back unchanged |
| FirstSeen.IndexOf | bin/bin.js:217 | the position of the first occurrence, and -1 exactly when the element is absent |
| FirstSeen.Dedup | bin/bin.js:216-218 | no repeats, exactly the input's elements, in order of first appearance |
| FirstSeen.DedupDistinct | bin/bin.js:216-218 | a list without repeats is its own de-duplication |
| FirstSeen.DedupIdempotent | bin/bin.js:216-218 | de-duplicating twice is de-duplicating once |
| Manifest.Assign | bin/bin.js:320 | the written path reads back the new list; every other path reads as before |
| SourcePaths.PathDirs | bin/bin.js:186-220 | a missing or falsy field contributes nothing; any contribution has no repeats |
| SourcePaths.CollectConcat | bin/bin.js:186-221 | collecting over joined rule lists is the joined collections |
| SourcePaths.FalsyPathContributesNothing | bin/bin.js:188-192 | removing a rule path whose field is missing leaves the collected list unchanged |
| SourcePaths.CollectMembers | bin/bin.js:186-221 | a directory is collected if and only if some present mapped field produces it as a candidate |
| SourcePaths.DuplicatesAcrossPaths | bin/bin.js:216-220 | de-duplication happens per field: one directory under two fields is collected twice, so the output can have repeats |
| SourcePaths.SrcCollectedTwice | bin/bin.js:216-220 | `src` under both `classpath` and `overrides` is collected as `src, src` |
| SourcePaths.SinglePathNoPlaceholders | bin/bin.js:186-220 | a single field without placeholders contributes its de-duplicated list |
| SourcePaths.MissingToolkitsDropEntry | bin/bin.js:181-203 | with no `toolkits` in the rules file, an entry naming `${toolkit.name}` produces no candidates |
| SourcePaths.PostProcessUnmarked | bin/bin.js:223-230 | a directory naming neither marker is kept as it is |
| SourcePaths.PostProcessPackage | bin/bin.js:225-227 | the first `${package.dir}`, and only it, becomes `.` |
| SourcePaths.PostProcessStaged | bin/bin.js:224 | the first `.deloreanbuild` is cut out wherever it occurs, for a directory whose cut form names no `${package.dir}` |
| SourcePaths.PostProcessStagedPackage | bin/bin.js:223-230 | a staged package directory `u${package.dir}/.deloreanbuild<y>` (no marker in `u`) becomes `u./<y>`, so `${package.dir}/.deloreanbuild/src` becomes `.//src` |
| SourcePaths.PostProcess | bin/bin.js:223-230 | post-processing never lengthens a directory, and leaves it unchanged exactly when it names neither `.deloreanbuild` nor `${package.dir}` |
| SourcePaths.PostProcessAll | bin/bin.js:223-230 | each collected directory is post-processed in place, one output per input |
| SourcePaths.CollectSourceDirs | bin/bin.js:186-221 | rule paths none of which the manifest holds collect nothing |
| SourcePaths.GetSourcePaths | bin/bin.js:176-234 | one source path per collected directory; nothing when the manifest holds none of the mapped fields |
| SourcePaths.PostProcessKeepsSeparatorRuns | bin/bin.js:228 | the result of `l8.unify` is discarded: `a//b` stays `a//b` although unify gives `a/b` |
| SourcePaths.GetSourcePathsMembers | bin/bin.js:186-232 | a directory is a source path if and only if it is the post-processed form of a candidate of some mapped field the manifest holds |
| SourcePaths.GetSourcePathsPlainField | bin/bin.js:186-232 | one mapped field whose entries name no placeholder and no marker yields exactly its entries with repeats removed, in order of first appearance |
| Separators.Unify | bin/bin.js:317 | normalisation keeps the first character and never lengthens an entry |
| Separators.UnifyNoDoubleSlash | bin/bin.js:317 | normalised entries have no doubled separator |
| Separators.UnifyIdempotent | bin/bin.js:317 | normalising twice is normalising once |
| Separators.UnifyKeepsNonSlash | bin/bin.js:317 | normalisation removes only separators |
| Rewrite.RewriteEntry | bin/bin.js:305-318 | every rewritten entry is free of doubled separators; reverting never lengthens an entry |
| Rewrite.StagePlainEntry | bin/bin.js:307-317 | an entry without `${package.dir}` is staged as `.deloreanbuild` followed by the normalised `/`-prefixed entry |
| Rewrite.StagePackageEntry | bin/bin.js:307-317 | an entry with `${package.dir}` gets `${package.dir}/.deloreanbuild` at its first placeholder; the text before and after is only normalised |
| Rewrite.StagedHasStageDir | bin/bin.js:309-317 | every staged entry names the staging folder |
| Rewrite.StripStage | bin/bin.js:307 | an entry is unchanged exactly when it names no `.deloreanbuild`; otherwise one `.deloreanbuild` is removed |
| Rewrite.AddStage | bin/bin.js:309-315 | staging adds the folder and one separator in front of a plain entry, and one more separator after a placeholder |
| Rewrite.AddStageNamesStage | bin/bin.js:309-315 | the staged entry always names `.deloreanbuild` |
| Rewrite.RestoreEntry | bin/bin.js:307-317 | the corrected revert never leaves a doubled separator and never lengthens an entry; `Rewrite.RestoreAfterStage` gives its round trip |
| Rewrite.RevertAfterStagePackage | bin/bin.js:305-318 | a package entry whose placeholder is followed by `/` is reverted to the normalised entry with its first `.deloreanbuild` cut out, when no second one remains |
| Rewrite.RevertRestoresPackageEntry | bin/bin.js:305-318 | revert undoes stage on every clean entry with a package placeholder |
| Rewrite.RevertAfterStagePlain | bin/bin.js:305-318 | revert after stage of a plain entry gives the normalised entry with a `/` in front |
| Rewrite.RevertPrefixesPlainEntry | bin/bin.js:305-318 | for every clean plain entry, revert∘stage is `/` followed by the entry, never the entry itself |
| Rewrite.RevertPlainCounterexample | bin/bin.js:305-318 | `src` is staged to `.deloreanbuild/src` and reverted to `/src` |
| Rewrite.StageIdempotent | bin/bin.js:305-318 | staging a staged entry changes nothing, for every entry without `${package.dir}`, and for every package entry that has no `.deloreanbuild` before its placeholder once its first `.deloreanbuild` is cut out |
| Rewrite.StageTwiceCounterexample | bin/bin.js:305-318 | outside that precondition staging is not idempotent: `.deloreanbuild/.deloreanbuild/${package.dir}/src` staged twice differs from it staged once |
| Rewrite.RestoreAfterStage | bin/bin.js:305-318 | the corrected revert undoes stage on every clean entry |
| Rewrite.StageMergesLeadingSeparator | bin/bin.js:307-317 | staging forgets a leading `/` on a plain entry: `/e` and `e` are staged alike |
| Rewrite.StageMergesPlaceholderSeparator | bin/bin.js:307-317 | staging forgets whether `${package.dir}` was followed by `/`: `${package.dir}src` and `${package.dir}/src` are staged alike |
| Rewrite.StageBarePlaceholder | bin/bin.js:305-318 | the bare `${package.dir}` is staged like `${package.dir}/`, to `${package.dir}/.deloreanbuild/`, and reverted to `${package.dir}/` |
| ProjectConfig.RewriteValue | bin/bin.js:305-318 | one rewritten entry per entry, in order |
| ProjectConfig.RewriteField | bin/bin.js:299-320 | a present field is replaced by its rewritten list; every other field and the key set are unchanged |
| ProjectConfig.RewriteFields | bin/bin.js:297-321 | the key set is unchanged; fields not mapped keep their lists; every list keeps its length |
| ProjectConfig.ChangeProjectConfig | bin/bin.js:282-321 | the key set is unchanged and unmapped fields are untouched |
| ProjectConfig.RewriteFieldsOnce | bin/bin.js:297-321 | with distinct rule paths, each mapped field is rewritten exactly once |
| ProjectConfig.RewriteFieldsTwice | bin/bin.js:297-321 | each lookup sees the manifest as already rewritten, so a path listed twice is rewritten twice |
| ProjectConfig.RewriteFieldsUndone | bin/bin.js:297-321 | with distinct rule paths, if a second pass gives back every mapped entry, it gives back the whole manifest |
| ProjectConfig.CleanupAfterPrepare | bin/bin.js:385-408 | cleaning up after preparing restores a manifest whose mapped entries are clean and carry `${package.dir}` |
| ProjectConfig.RestoreAfterPrepare | bin/bin.js:305-320 | the corrected revert restores every manifest of clean entries |
| ProjectConfig.RewriteFieldsSettled | bin/bin.js:297-321 | with distinct rule paths, a second pass of an entry rewrite that is idempotent on every mapped entry changes nothing |
| ProjectConfig.PrepareIdempotent | bin/bin.js:388 | preparing an already prepared manifest changes nothing, for the entries `Rewrite.StageIdempotent` covers |
| Cli.ReadFlags | bin/bin.js:97-123 | prepare and cleanup exclude each other and each turns help off; help is on exactly when neither is set; a parse error leaves the defaults; the rules file name is never empty and is either the `--config` value or `./.deloreanrc.json`, and a non-empty `--config` value is always the one read |
| Cli.Dispatch | bin/bin.js:126-419 | help runs exactly when it is requested (bin/bin.js:126-129); prepare comes before cleanup (bin/bin.js:415-419); nothing runs exactly when no flag is set |
| Cli.SelectMode | bin/bin.js:108-129 | `--prepare` prepares (even with `--revert`); `--revert` alone cleans up; help otherwise, including a parse error; some mode always runs |
| Cli.HelpYieldsToMode | bin/bin.js:116-120 | `--help` together with `--prepare` or `--revert` runs a mode, not the help |
| Cli.PrepareWinsOverRevert | bin/bin.js:116-118 | `--prepare` with `--revert` prepares |
| Cli.HelpFlagIrrelevant | bin/bin.js:110-112 | `--help` changes neither the flags nor the mode |

## Left out

- File-system work is not modelled, and neither is its order relative to the string logic. This covers reading the rules file and the manifest, the backup copy, `moveProjectFiles`, writing the manifest back, and `copyConfigurationTemplates`.
- `processExternals` is not modelled. For each configured external that has a `.deloreanrc.json`, it runs `npx --prefix <external> delorean -p` (or `-r` when reverting) in a shell and logs a random `quote()`. It edits no files itself; it is process spawning outside the path pipeline.
- The Babel invocation, the log output and the help text are not modelled.
- `lib/postinstall.js` is not part of this model.
- The `command-line-args` parser is not modelled. Its outcome (options or a thrown error) is the input of `Cli.ReadFlags`.
- `--base` is not modelled: it only sets the project directory (URL handling).
- `process.exit` is not modelled beyond ending in the help mode.
- `l8.unify`, `l8.chain` and `l8.unchain` come from a library whose source is not part of this model. Their behaviour is the assumption stated above.
- A manifest field whose value is truthy but not an array makes `value.map` throw. The model's fields are always lists.
- The rules file's `map` is assumed present and a list.
- `Rewrite.StageIdempotent`: not proved for a package entry that, after its first `.deloreanbuild` is cut out, still has a `.deloreanbuild` before its `${package.dir}` (such as `.deloreanbuild/.deloreanbuild/${package.dir}/src`). Staging such an entry twice moves the second marker behind the placeholder, so the property does not hold there (`Rewrite.StageTwiceCounterexample`). Plain entries and package entries with further markers after the placeholder are covered.
- `Rewrite.RestoreAfterStage`: proved only for clean entries. An entry whose `${package.dir}` is not followed by `/` (`${package.dir}src`, or the bare `${package.dir}`), or a plain entry starting with `/`, is staged to the same text as another entry (`Rewrite.StageMergesPlaceholderSeparator`, `Rewrite.StageMergesLeadingSeparator`, `Rewrite.StageBarePlaceholder`). No revert can give back both, so no corrected revert is promised there. Entries with `//` or a `.deloreanbuild` of their own are likewise not covered.
- `Rewrite.RevertRestoresPackageEntry`: proved only for clean package entries. The source's revert turns `${package.dir}src` into `${package.dir}/src` and the bare `${package.dir}` into `${package.dir}/` (`Rewrite.StageBarePlaceholder`).
- `Expand.ReplaceEach`: replacement strings are copied literally. JavaScript's `replace` would expand `$&`, `$$` and similar patterns in a toolkit name or build id; names holding `$` are not modelled.
- `ProjectConfig.CleanupAfterPrepare`, `ProjectConfig.RestoreAfterPrepare`, `ProjectConfig.PrepareIdempotent`, `ProjectConfig.RewriteFieldsUndone`, `ProjectConfig.RewriteFieldsSettled`: these assume distinct rule paths. `ProjectConfig.RewriteFieldsTwice` shows what a repeated path does.
- The staging folder name is the literal `.deloreanbuild` written into `bin/bin.js:307-313`; it is not configurable, and the model has it as a constant.
- The options `bin/bin.js:100-106` defines are `--prepare`, `--revert`, `--config`, `--help` and `--base`; there are no others.
- Revert does not give plain entries back as they were; see Findings.

## Findings

| source | as written | input that shows it | evidently intended | confidence | as-written member | corrected member |
|---|---|---|---|---|---|---|
| bin/bin.js:307-317 | Reverting strips only `.deloreanbuild`, not the `/` that staging put after it. Normalisation then keeps the now-leading `/`. | `src` is staged to `.deloreanbuild/src` and reverted to `/src` | cleaning up after preparing gives every clean entry back, `src` included | medium, not executed | Rewrite.RevertPrefixesPlainEntry | Rewrite.RestoreAfterStage |

`Rewrite.RevertPlainCounterexample` is the concrete witness.
`Rewrite.RestoreEntry` is the corrected revert, which strips `.deloreanbuild/` together with its separator.
`ProjectConfig.RestoreAfterPrepare` proves that it restores whole manifests of clean entries.

=== FILE: cli.dfy ===
/** Command-line handling of bin/bin.js: which of the two modes runs, and
    which rules file is read. Parsing itself (`command-line-args`) is
    outside the model; its outcome is the input here. */
module Cli {
  import opened Wrappers

  /** The rules file read when `--config` gives no usable name. */
  const DEFAULT_CONFIG_FILE: string := "./.deloreanrc.json"

  /** What `commandLineArgs(optionDefinitions)` hands back. A boolean
      records whether the option appeared at all (`!== undefined`);
      `config` is the string given after `--config`, None when it was
      absent or given without a value. */
  datatype Options = Options(
    prepare: bool,
    revert: bool,
    help: bool,
    config: Option<string>)

  /** Either the parsed options, or the exception the parser throws on an
      unknown option, which the `try` swallows. */
  datatype ParseResult = Parsed(opts: Options) | ParseError

  /** The four module-level variables the `try` block sets. */
  datatype Flags = Flags(configFile: string, showHelp: bool, isPrepare: bool, isCleanup: bool)

  /** The mode the script ends up in. */
  datatype Action = ShowHelp | Prepare | Cleanup | Nothing

  /** The `try` block after parsing: `--config` with a non-empty name
      replaces the rules file; `--prepare` or `--revert` turns help off and
      picks the mode, prepare taking precedence. `--help` sets `showHelp`
      to the `true` it already holds, so it changes nothing. */
  function ReadFlags(pr: ParseResult): (r: Flags)
    ensures r.isPrepare ==> !r.isCleanup && !r.showHelp
    ensures r.isCleanup ==> !r.isPrepare && !r.showHelp
    ensures r.showHelp <==> !r.isPrepare && !r.isCleanup
    ensures pr.ParseError? ==> r == Flags(DEFAULT_CONFIG_FILE, true, false, false)
    ensures r.configFile != ""
    ensures r.configFile == DEFAULT_CONFIG_FILE || (pr.Parsed? && pr.opts.config == Some(r.configFile))
    ensures pr.Parsed? && pr.opts.config.Some? && pr.opts.config.value != "" ==> r.configFile == pr.opts.config.value
  {
    match pr
    case ParseError => Flags(DEFAULT_CONFIG_FILE, true, false, false)
    case Parsed(o) =>
      var configFile := if o.config.Some? && o.config.value != "" then o.config.value else DEFAULT_CONFIG_FILE;
      if o.prepare || o.revert then
        Flags(configFile, false, o.prepare, !o.prepare)
      else
        Flags(configFile, true, false, false)
  }

  /** What the tool does with its flags: a help request prints the usage and
      stops; otherwise prepare is tried before cleanup, and with neither
      set nothing runs. */
  function Dispatch(f: Flags): (r: Action)
    ensures r == ShowHelp <==> f.showHelp
    ensures r == Nothing <==> !f.showHelp && !f.isPrepare && !f.isCleanup
  {
    if f.showHelp then ShowHelp
    else if f.isPrepare then Prepare
    else if f.isCleanup then Cleanup
    else Nothing
  }

  /** The mode for a command line. */
  function SelectMode(pr: ParseResult): (r: Action)
    ensures r == Prepare <==> pr.Parsed? && pr.opts.prepare
    ensures r == Cleanup <==> pr.Parsed? && !pr.opts.prepare && pr.opts.revert
    ensures r == ShowHelp <==> pr.ParseError? || (!pr.opts.prepare && !pr.opts.revert)
    ensures r != Nothing
  {
    Dispatch(ReadFlags(pr))
  }

  /** `--help` never wins over a mode flag. */
  lemma HelpYieldsToMode(o: Options)
    requires o.help && (o.prepare || o.revert)
    ensures SelectMode(Parsed(o)) != ShowHelp
  {
  }

  /** `--help` has no effect of its own. */
  lemma HelpFlagIrrelevant(o: Options)
    ensures SelectMode(Parsed(o.(help := true))) == SelectMode(Parsed(o.(help := false)))
    ensures ReadFlags(Parsed(o.(help := true))) == ReadFlags(Parsed(o.(help := false)))
  {
  }

  /** Both mode flags together prepare. */
  lemma PrepareWinsOverRevert(o: Options)
    requires o.prepare && o.revert
    ensures SelectMode(Parsed(o)) == Prepare
  {
  }
}

=== FILE: dedup.dfy ===
/** `entries.filter((el, index) => entries.indexOf(el) === index)`: keep an
    element only at the position where it first appears. */
module FirstSeen {

  /** JavaScript's `xs.indexOf(x)`: the first index holding `x`, or -1. */
  function IndexOf<T(==)>(xs: seq<T>, x: T): (r: int)
    ensures -1 <= r < |xs|
    ensures r == -1 <==> x !in xs
    ensures 0 <= r ==> xs[r] == x && x !in xs[..r]
  {
    if |xs| == 0 then -1
    else if xs[0] == x then 0
    else
      var k := IndexOf(xs[1..], x);
      assert k >= 0 ==> xs[..k + 1] == [xs[0]] + xs[1..][..k];
      if k == -1 then -1 else k + 1
  }

  /** No element appears twice. */
  predicate Distinct<T(==)>(xs: seq<T>) {
    forall i, j :: 0 <= i < j < |xs| ==> xs[i] != xs[j]
  }

  /** An element of a prefix is first found inside that prefix. */
  lemma IndexOfInPrefix<T>(xs: seq<T>, x: T, n: nat)
    requires n <= |xs| && x in xs[..n]
    ensures 0 <= IndexOf(xs, x) < n
  {
  }

  /** The filter applied to the first `n` positions of `xs`. Its result holds
      each value of `xs[..n]` exactly once, in order of first appearance. */
  function KeepFirst<T(==, !new)>(xs: seq<T>, n: nat): (r: seq<T>)
    requires n <= |xs|
    ensures Distinct(r)
    ensures forall x :: x in r <==> x in xs[..n]
    ensures forall i, j :: 0 <= i < j < |r| ==> IndexOf(xs, r[i]) < IndexOf(xs, r[j])
  {
    if n == 0 then []
    else
      var prev := KeepFirst(xs, n - 1);
      var x := xs[n - 1];
      assert xs[..n] == xs[..n - 1] + [x];
      if IndexOf(xs, x) == n - 1 then
        assert x !in prev;
        forall i | 0 <= i < |prev|
          ensures IndexOf(xs, prev[i]) < n - 1
        {
          IndexOfInPrefix(xs, prev[i], n - 1);
        }
        prev + [x]
      else
        assert x in xs[..n - 1] by {
          var k := IndexOf(xs, x);
          assert 0 <= k < n - 1;
          assert xs[..n - 1][k] == x;
        }
        prev
  }

  /** The de-duplicated list: every value of `xs` exactly once, in the order
      of its first appearance. */
  function Dedup<T(==, !new)>(xs: seq<T>): (r: seq<T>)
    ensures Distinct(r)
    ensures forall x :: x in r <==> x in xs
    ensures forall i, j :: 0 <= i < j < |r| ==> IndexOf(xs, r[i]) < IndexOf(xs, r[j])
  {
    assert xs[..|xs|] == xs;
    KeepFirst(xs, |xs|)
  }

  /** In a list without repeats every element is at its first index. */
  lemma IndexOfDistinct<T>(xs: seq<T>, k: nat)
    requires Distinct(xs) && k < |xs|
    ensures IndexOf(xs, xs[k]) == k
  {
  }

  /** A list without repeats passes through the filter unchanged. */
  lemma {:induction false} KeepFirstDistinct<T(!new)>(xs: seq<T>, n: nat)
    requires Distinct(xs) && n <= |xs|
    ensures KeepFirst(xs, n) == xs[..n]
  {
    if n > 0 {
      KeepFirstDistinct(xs, n - 1);
      IndexOfDistinct(xs, n - 1);
      assert xs[..n] == xs[..n - 1] + [xs[n - 1]];
    }
  }

  /** De-duplication leaves a list without repeats as it is. */
  lemma DedupDistinct<T(!new)>(xs: seq<T>)
    requires Distinct(xs)
    ensures Dedup(xs) == xs
  {
    KeepFirstDistinct(xs, |xs|);
    assert xs[..|xs|] == xs;
  }

  /** De-duplicating twice is de-duplicating once. */
  lemma DedupIdempotent<T(!new)>(xs: seq<T>)
    ensures Dedup(Dedup(xs)) == Dedup(xs)
  {
    DedupDistinct(Dedup(xs));
  }
}

=== FILE: expand.dfy ===
/** Placeholder expansion and de-duplication of one manifest field's list of
    directories: `spreadTpl` and `visitEntries` inside `getSourcePaths`. */
module Expand {
  import opened Strings
  import opened Markers
  import opened FirstSeen

  /** `replacements.forEach(rpl => result.push(dir.replace(tpl, rpl)))`:
      one copy of `dir` per replacement, in replacement order. */
  function ReplaceEach(dir: string, tpl: string, rpls: seq<string>): (r: seq<string>)
    ensures |r| == |rpls|
    ensures forall i :: 0 <= i < |rpls| ==> r[i] == ReplaceFirst(dir, tpl, rpls[i])
  {
    if |rpls| == 0 then [] else [ReplaceFirst(dir, tpl, rpls[0])] + ReplaceEach(dir, tpl, rpls[1..])
  }

  /** `spreadTpl(dir, tpl, replacements)`: an entry without the placeholder
      is kept as the single result; an entry with it becomes one entry per
      replacement, each with only the first placeholder replaced. An empty
      replacement list therefore drops the entry. */
  function SpreadTpl(dir: string, tpl: string, rpls: seq<string>): (r: seq<string>)
    ensures !Contains(dir, tpl) ==> r == [dir]
    ensures Contains(dir, tpl) ==> |r| == |rpls|
    ensures Contains(dir, tpl) ==> forall i :: 0 <= i < |rpls| ==> r[i] == ReplaceFirst(dir, tpl, rpls[i])
  {
    if Contains(dir, tpl) then ReplaceEach(dir, tpl, rpls) else [dir]
  }

  /** `entries.map(entry => spreadTpl(entry, tpl, rpls)).flat()` */
  function SpreadAll(entries: seq<string>, tpl: string, rpls: seq<string>): (r: seq<string>)
    ensures |rpls| == 0 ==> forall x :: x in r <==> x in entries && !Contains(x, tpl)
  {
    if |entries| == 0 then [] else SpreadTpl(entries[0], tpl, rpls) + SpreadAll(entries[1..], tpl, rpls)
  }

  /** The flattened expansion of a list is the expansion of its parts, joined. */
  lemma {:induction false} SpreadAllConcat(a: seq<string>, b: seq<string>, tpl: string, rpls: seq<string>)
    ensures SpreadAll(a + b, tpl, rpls) == SpreadAll(a, tpl, rpls) + SpreadAll(b, tpl, rpls)
  {
    if |a| == 0 {
      assert a + b == b;
    } else {
      assert (a + b)[1..] == a[1..] + b;
      SpreadAllConcat(a[1..], b, tpl, rpls);
    }
  }

  /** A list in which no entry holds the placeholder passes through unchanged. */
  lemma {:induction false} SpreadAllIdentity(entries: seq<string>, tpl: string, rpls: seq<string>)
    requires forall k :: 0 <= k < |entries| ==> !Contains(entries[k], tpl)
    ensures SpreadAll(entries, tpl, rpls) == entries
  {
    if |entries| > 0 {
      SpreadAllIdentity(entries[1..], tpl, rpls);
      assert [entries[0]] + entries[1..] == entries;
    }
  }

  /** Position of cell (`row`, `col`) in a row-major layout `width` cells
      wide, counted without multiplication; `OffsetIsProduct` relates it to
      `row * width + col`. */
  function Offset(row: nat, col: nat, width: nat): nat {
    if row == 0 then col else width + Offset(row - 1, col, width)
  }

  lemma {:induction false} OffsetIsProduct(row: nat, col: nat, width: nat)
    ensures Offset(row, col, width) == row * width + col
  {
    if row > 0 {
      OffsetIsProduct(row - 1, col, width);
      MulSucc(row - 1, width);
    }
  }

  lemma MulSucc(a: int, n: int)
    ensures (a + 1) * n == a * n + n
  {
  }

  /** When every entry holds the placeholder, each contributes one cell per
      replacement. */
  lemma {:induction false} SpreadAllLength(entries: seq<string>, tpl: string, rpls: seq<string>)
    requires AllContain(entries, tpl)
    ensures |SpreadAll(entries, tpl, rpls)| == Offset(|entries|, 0, |rpls|)
  {
    if |entries| > 0 {
      AllContainTail(entries, tpl);
      SpreadAllLength(entries[1..], tpl, rpls);
    }
  }

  /** Every entry holds the placeholder. */
  predicate AllContain(entries: seq<string>, tpl: string) {
    forall k :: 0 <= k < |entries| ==> Contains(entries[k], tpl)
  }

  lemma AllContainTail(entries: seq<string>, tpl: string)
    requires |entries| > 0 && AllContain(entries, tpl)
    ensures AllContain(entries[1..], tpl)
  {
    forall k | 0 <= k < |entries| - 1
      ensures Contains(entries[1..][k], tpl)
    {
      assert entries[1..][k] == entries[k + 1];
    }
  }

  lemma ConcatLeft<T>(a: seq<T>, b: seq<T>, k: nat)
    requires k < |a|
    ensures (a + b)[k] == a[k]
  {
  }

  lemma ConcatRight<T>(a: seq<T>, b: seq<T>, k: nat)
    requires k < |b|
    ensures (a + b)[|a| + k] == b[k]
  {
  }

  /** Rows joined end to end. */
  function Flatten<T>(rows: seq<seq<T>>): seq<T> {
    if |rows| == 0 then [] else rows[0] + Flatten(rows[1..])
  }

  /** In a join of rows `width` long, cell (`i`, `j`) sits at `Offset(i, j, width)`. */
  lemma {:induction false} FlattenCell<T>(rows: seq<seq<T>>, width: nat, i: nat, j: nat)
    requires forall k :: 0 <= k < |rows| ==> |rows[k]| == width
    requires i < |rows| && j < width
    ensures Offset(i, j, width) < |Flatten(rows)|
    ensures Flatten(rows)[Offset(i, j, width)] == rows[i][j]
    decreases i
  {
    if i == 0 {
      ConcatLeft(rows[0], Flatten(rows[1..]), j);
    } else {
      FlattenCell(rows[1..], width, i - 1, j);
      assert rows[1..][i - 1] == rows[i];
      assert |rows[0]| == width;
      ConcatRight(rows[0], Flatten(rows[1..]), Offset(i - 1, j, width));
    }
  }

  /** The expansion of each entry, one row per entry. */
  function Rows(entries: seq<string>, tpl: string, rpls: seq<string>): (r: seq<seq<string>>)
    ensures |r| == |entries|
    ensures forall k :: 0 <= k < |entries| ==> r[k] == SpreadTpl(entries[k], tpl, rpls)
  {
    seq(|entries|, k requires 0 <= k < |entries| => SpreadTpl(entries[k], tpl, rpls))
  }

  lemma {:induction false} SpreadAllFlatten(entries: seq<string>, tpl: string, rpls: seq<string>)
    ensures SpreadAll(entries, tpl, rpls) == Flatten(Rows(entries, tpl, rpls))
  {
    if |entries| > 0 {
      SpreadAllFlatten(entries[1..], tpl, rpls);
      assert Rows(entries, tpl, rpls)[1..] == Rows(entries[1..], tpl, rpls);
    }
  }

  /** Cell (`i`, `j`) of the grid is cell `j` of entry `i`'s expansion. */
  lemma SpreadAllRow(entries: seq<string>, tpl: string, rpls: seq<string>, i: nat, j: nat)
    requires AllContain(entries, tpl)
    requires i < |entries| && j < |rpls|
    ensures |SpreadTpl(entries[i], tpl, rpls)| == |rpls|
    ensures Offset(i, j, |rpls|) < |SpreadAll(entries, tpl, rpls)|
    ensures SpreadAll(entries, tpl, rpls)[Offset(i, j, |rpls|)] == SpreadTpl(entries[i], tpl, rpls)[j]
  {
    var rows := Rows(entries, tpl, rpls);
    SpreadAllFlatten(entries, tpl, rpls);
    forall k | 0 <= k < |rows|
      ensures |rows[k]| == |rpls|
    {
      assert Contains(entries[k], tpl);
    }
    FlattenCell(rows, |rpls|, i, j);
  }

  /** Cell (`i`, `j`) of the grid is entry `i` with replacement `j`. */
  lemma SpreadAllCell(entries: seq<string>, tpl: string, rpls: seq<string>, i: nat, j: nat)
    requires AllContain(entries, tpl)
    requires i < |entries| && j < |rpls|
    ensures Offset(i, j, |rpls|) < |SpreadAll(entries, tpl, rpls)|
    ensures SpreadAll(entries, tpl, rpls)[Offset(i, j, |rpls|)] == ReplaceFirst(entries[i], tpl, rpls[j])
  {
    SpreadAllRow(entries, tpl, rpls, i, j);
    assert Contains(entries[i], tpl);
  }

  /** When every entry holds the placeholder, the expansion is a grid with
      one row per entry and one column per replacement: cell (`i`, `j`) is
      entry `i` with replacement `j`. */
  lemma SpreadAllGrid(entries: seq<string>, tpl: string, rpls: seq<string>)
    requires AllContain(entries, tpl)
    ensures |SpreadAll(entries, tpl, rpls)| == Offset(|entries|, 0, |rpls|)
    ensures forall i, j :: 0 <= i < |entries| && 0 <= j < |rpls| ==>
      Offset(i, j, |rpls|) < |SpreadAll(entries, tpl, rpls)| &&
      SpreadAll(entries, tpl, rpls)[Offset(i, j, |rpls|)] == ReplaceFirst(entries[i], tpl, rpls[j])
  {
    SpreadAllLength(entries, tpl, rpls);
    forall i, j | 0 <= i < |entries| && 0 <= j < |rpls|
      ensures Offset(i, j, |rpls|) < |SpreadAll(entries, tpl, rpls)|
      ensures SpreadAll(entries, tpl, rpls)[Offset(i, j, |rpls|)] == ReplaceFirst(entries[i], tpl, rpls[j])
    {
      SpreadAllCell(entries, tpl, rpls, i, j);
    }
  }

  /** The grid has `|entries| * |rpls|` cells. */
  lemma SpreadAllSize(entries: seq<string>, tpl: string, rpls: seq<string>)
    requires AllContain(entries, tpl)
    ensures |SpreadAll(entries, tpl, rpls)| == |entries| * |rpls|
  {
    SpreadAllGrid(entries, tpl, rpls);
    OffsetIsProduct(|entries|, 0, |rpls|);
  }

  /** The candidate list of `visitEntries` before de-duplication: the toolkit
      pass, then the build pass over its output. */
  function Candidates(entries: seq<string>, toolkits: seq<string>, builds: seq<string>): (r: seq<string>)
    ensures |toolkits| == 0 && |builds| == 0 ==>
      forall x :: x in r <==> x in entries && !Contains(x, TOOLKIT_NAME) && !Contains(x, BUILD_ID)
  {
    SpreadAll(SpreadAll(entries, TOOLKIT_NAME, toolkits), BUILD_ID, builds)
  }

  /** `visitEntries(value)`: the candidates with repeats removed. The result
      holds every candidate exactly once, in order of first appearance. */
  function VisitEntries(entries: seq<string>, toolkits: seq<string>, builds: seq<string>): (r: seq<string>)
    ensures Distinct(r)
    ensures forall x :: x in r <==> x in Candidates(entries, toolkits, builds)
    ensures forall i, j :: 0 <= i < j < |r| ==>
      IndexOf(Candidates(entries, toolkits, builds), r[i]) < IndexOf(Candidates(entries, toolkits, builds), r[j])
  {
    Dedup(Candidates(entries, toolkits, builds))
  }

  /** The two placeholders cannot overlap, so replacing the first toolkit
      placeholder keeps a build placeholder in the entry. */
  lemma ToolkitPassKeepsBuildId(e: string, t: string)
    requires Contains(e, TOOLKIT_NAME) && Contains(e, BUILD_ID)
    ensures Contains(ReplaceFirst(e, TOOLKIT_NAME, t), BUILD_ID)
  {
    var i := Find(e, TOOLKIT_NAME).value;
    var k := Find(e, BUILD_ID).value;
    PlaceholdersApart(e, i, k);
    ReplaceFirstKeepsDisjoint(e, TOOLKIT_NAME, t, BUILD_ID, i, k);
  }

  /** Occurrences of the two placeholders never overlap: each opens with the
      only `$` in its span, and they differ in their third character. */
  lemma PlaceholdersApart(e: string, i: nat, k: nat)
    requires OccursAt(e, TOOLKIT_NAME, i) && OccursAt(e, BUILD_ID, k)
    ensures k + |BUILD_ID| <= i || i + |TOOLKIT_NAME| <= k
  {
    DollarOnlyAtStart(e, TOOLKIT_NAME, i);
    DollarOnlyAtStart(e, BUILD_ID, k);
    assert |TOOLKIT_NAME| == 15 && |BUILD_ID| == 11 && TOOLKIT_NAME[2] == 't' && BUILD_ID[2] == 'b' by {
      PlaceholderFacts();
    }
    OccursAtChar(e, TOOLKIT_NAME, i, 2);
    OccursAtChar(e, BUILD_ID, k, 2);
  }

  /** Where a placeholder occurs, its `$` is the only one in its span. */
  lemma DollarOnlyAtStart(e: string, pat: string, i: nat)
    requires pat == TOOLKIT_NAME || pat == BUILD_ID
    requires OccursAt(e, pat, i)
    ensures e[i] == '$'
    ensures forall p :: i < p < i + |pat| ==> e[p] != '$'
  {
    PlaceholderFacts();
    var span := e[i..i + |pat|];
    assert e[i] == span[0];
    forall p | i < p < i + |pat|
      ensures e[p] != '$'
    {
      assert e[p] == span[p - i];
    }
  }

  /** An entry holding both placeholders expands, before de-duplication, to
      `|toolkits| * |builds|` candidates: toolkit names vary in the outer
      position, build ids in the inner one, because the toolkit pass runs
      first. */
  lemma BothPlaceholders(e: string, toolkits: seq<string>, builds: seq<string>)
    requires Contains(e, TOOLKIT_NAME) && Contains(e, BUILD_ID)
    ensures |Candidates([e], toolkits, builds)| == |toolkits| * |builds|
    ensures forall i, j :: 0 <= i < |toolkits| && 0 <= j < |builds| ==>
      Offset(i, j, |builds|) < |Candidates([e], toolkits, builds)| &&
      Candidates([e], toolkits, builds)[Offset(i, j, |builds|)]
        == ReplaceFirst(ReplaceFirst(e, TOOLKIT_NAME, toolkits[i]), BUILD_ID, builds[j])
  {
    var first := SpreadAll([e], TOOLKIT_NAME, toolkits);
    assert first == ReplaceEach(e, TOOLKIT_NAME, toolkits) by {
      assert [e][0] == e && [e][1..] == [];
      assert first == SpreadTpl(e, TOOLKIT_NAME, toolkits) + SpreadAll([], TOOLKIT_NAME, toolkits);
    }
    forall k | 0 <= k < |first|
      ensures Contains(first[k], BUILD_ID)
    {
      ToolkitPassKeepsBuildId(e, toolkits[k]);
    }
    SpreadAllGrid(first, BUILD_ID, builds);
    SpreadAllSize(first, BUILD_ID, builds);
  }

  /** Lists free of both placeholders are only de-duplicated; without
      repeats they come back unchanged. */
  lemma NoPlaceholders(entries: seq<string>, toolkits: seq<string>, builds: seq<string>)
    requires forall k :: 0 <= k < |entries| ==> !Contains(entries[k], TOOLKIT_NAME) && !Contains(entries[k], BUILD_ID)
    ensures VisitEntries(entries, toolkits, builds) == Dedup(entries)
    ensures Distinct(entries) ==> VisitEntries(entries, toolkits, builds) == entries
  {
    SpreadAllIdentity(entries, TOOLKIT_NAME, toolkits);
    SpreadAllIdentity(entries, BUILD_ID, builds);
    if Distinct(entries) {
      DedupDistinct(entries);
    }
  }
}

=== FILE: manifest.dfy ===
/** The two JSON documents the pipeline reads: the rules file
    (`.deloreanrc.json`) and the project manifest (`app.json` or
    `package.json`). Only the parts the path pipeline touches are kept. */
module Manifest {
  import opened Wrappers

  /** The rules file: `map` lists manifest field paths (e.g. `classpath`,
      `overrides`); `toolkits` and `builds` are optional enumerations. */
  datatype Config = Config(
    mapPaths: seq<string>,
    toolkits: Option<seq<string>>,
    builds: Option<seq<string>>)
  {
    /** `deloreanConfig.toolkits || []` */
    function ToolkitNames(): seq<string> {
      toolkits.GetOr([])
    }

    /** `deloreanConfig.builds || []` */
    function BuildIds(): seq<string> {
      builds.GetOr([])
    }
  }

  /** The project manifest, seen through its directory-list fields: a field
      path is a key exactly when `l8.unchain(path, manifest)` yields a truthy
      list (every JavaScript array is truthy, even an empty one). Distinct
      path expressions are assumed to name distinct fields. */
  datatype Manifest = Manifest(fields: map<string, seq<string>>)

  /** `l8.unchain(path, manifest)` followed by the `if (!value) return;`
      test: None exactly when the field is missing or falsy. */
  function Lookup(m: Manifest, path: string): (r: Option<seq<string>>)
    ensures r.Some? <==> path in m.fields
    ensures r.Some? ==> r.value == m.fields[path]
  {
    if path in m.fields then Some(m.fields[path]) else None
  }

  /** `l8.chain(path, manifest, value, true)`: overwrite the list at `path`,
      leaving every other field as it was. */
  function Assign(m: Manifest, path: string, value: seq<string>): (r: Manifest)
    ensures Lookup(r, path) == Some(value)
    ensures forall p :: p != path ==> Lookup(r, p) == Lookup(m, p)
  {
    Manifest(m.fields[path := value])
  }
}

=== FILE: markers.dfy ===
/** The literal markers bin/bin.js matches on: the staging folder's name and
    the three template placeholders a manifest entry may contain. */
module Markers {
  import opened Separators

  /** The staging folder every staged entry is moved under. */
  const STAGE_DIR: string := ".deloreanbuild"

  /** Placeholder for the package root; source paths turn it into `.`. */
  const PACKAGE_DIR: string := "${package.dir}"

  /** Placeholder expanded over the configured toolkit names. */
  const TOOLKIT_NAME: string := "${toolkit.name}"

  /** Placeholder expanded over the configured build ids. */
  const BUILD_ID: string := "${build.id}"

  /** The staging folder has no separator, starts with the only `.` in it,
      ends in `d` and holds no `$`. */
  lemma StageDirFacts()
    ensures |STAGE_DIR| == 14 && NoSlash(STAGE_DIR) && STAGE_DIR[0] == '.' && STAGE_DIR[13] == 'd'
    ensures forall k :: 0 <= k < |STAGE_DIR| ==> STAGE_DIR[k] != '$'
    ensures forall k :: 0 < k < |STAGE_DIR| ==> STAGE_DIR[k] != '.'
  {
  }

  /** The package placeholder has no separator, starts with the only `$` in
      it and ends in `}`. */
  lemma PackageDirFacts()
    ensures |PACKAGE_DIR| == 14 && NoSlash(PACKAGE_DIR) && PACKAGE_DIR[0] == '$' && PACKAGE_DIR[13] == '}'
    ensures forall k :: 0 < k < |PACKAGE_DIR| ==> PACKAGE_DIR[k] != '$'
  {
  }

  /** Each expansion placeholder starts with the only `$` in it, and the two
      differ in their third character. */
  lemma PlaceholderFacts()
    ensures |TOOLKIT_NAME| == 15 && TOOLKIT_NAME[0] == '$' && TOOLKIT_NAME[2] == 't'
    ensures forall k :: 0 < k < |TOOLKIT_NAME| ==> TOOLKIT_NAME[k] != '$'
    ensures |BUILD_ID| == 11 && BUILD_ID[0] == '$' && BUILD_ID[2] == 'b'
    ensures forall k :: 0 < k < |BUILD_ID| ==> BUILD_ID[k] != '$'
  {
  }
}

=== FILE: project.dfy ===
/** `changeProjectConfig(revert)` (bin/bin.js) on the manifest: every field
    the rules file maps has each of its entries rewritten, in rule order,
    and every other field is left alone. */
module ProjectConfig {
  import opened Wrappers
  import opened FirstSeen
  import opened Manifest
  import opened Strings
  import opened Markers
  import opened Rewrite

  /** The entry rewrite `changeProjectConfig` applies for one value of its
      flag. The fold below takes any entry rewrite, so that the corrected
      revert `RestoreEntry` can be run through it as well. */
  function Pass(d: Direction): string -> string {
    dir => RewriteEntry(dir, d)
  }

  /** `value.map(dir => ...)`: one rewritten entry per entry, in order. */
  function RewriteValue(value: seq<string>, rw: string -> string): (r: seq<string>)
    ensures |r| == |value|
    ensures forall k :: 0 <= k < |value| ==> r[k] == rw(value[k])
  {
    if |value| == 0 then [] else [rw(value[0])] + RewriteValue(value[1..], rw)
  }

  /** Rewriting twice undoes the first pass when every entry comes back. */
  lemma RewriteValueUndone(value: seq<string>, rw1: string -> string, rw2: string -> string)
    requires forall k :: 0 <= k < |value| ==> rw2(rw1(value[k])) == value[k]
    ensures RewriteValue(RewriteValue(value, rw1), rw2) == value
  {
  }

  /** The body of `paths.map(path => ...)`: a missing or falsy field is
      skipped, a present one is rewritten and written back. */
  function RewriteField(m: Manifest, path: string, rw: string -> string): (r: Manifest)
    ensures r.fields.Keys == m.fields.Keys
    ensures path in m.fields ==> r.fields[path] == RewriteValue(m.fields[path], rw)
    ensures forall p :: p in m.fields && p != path ==> r.fields[p] == m.fields[p]
  {
    match Lookup(m, path)
    case None => m
    case Some(value) => Assign(m, path, RewriteValue(value, rw))
  }

  /** `paths.map(...)` over the rule paths in order. Each lookup sees the
      manifest as the earlier paths left it, so a path listed twice is
      rewritten twice. */
  function RewriteFields(paths: seq<string>, m: Manifest, rw: string -> string): (r: Manifest)
    ensures r.fields.Keys == m.fields.Keys
    ensures forall p :: p in m.fields && p !in paths ==> r.fields[p] == m.fields[p]
    ensures forall p :: p in m.fields ==> |r.fields[p]| == |m.fields[p]|
    decreases |paths|
  {
    if |paths| == 0 then m else RewriteFields(paths[1..], RewriteField(m, paths[0], rw), rw)
  }

  /** `changeProjectConfig(revert)`: `PREPARE` calls it without the flag
      and stages, `CLEANUP` calls it with `true` and reverts. */
  function ChangeProjectConfig(cfg: Config, m: Manifest, revert: bool): (r: Manifest)
    ensures r.fields.Keys == m.fields.Keys
    ensures forall p :: p in m.fields && p !in cfg.mapPaths ==> r.fields[p] == m.fields[p]
  {
    RewriteFields(cfg.mapPaths, m, Pass(if revert then Revert else Stage))
  }

  /** With no path listed twice, every mapped field is rewritten exactly
      once and every other field keeps its list. */
  lemma {:induction false} RewriteFieldsOnce(paths: seq<string>, m: Manifest, rw: string -> string)
    requires Distinct(paths)
    ensures forall p :: p in m.fields && p in paths ==>
      RewriteFields(paths, m, rw).fields[p] == RewriteValue(m.fields[p], rw)
  {
    if |paths| > 0 {
      var m' := RewriteField(m, paths[0], rw);
      assert Distinct(paths[1..]);
      RewriteFieldsOnce(paths[1..], m', rw);
      assert paths[0] !in paths[1..];
      forall p | p in m.fields && p in paths
        ensures RewriteFields(paths, m, rw).fields[p] == RewriteValue(m.fields[p], rw)
      {
        if p != paths[0] {
          assert p in paths[1..];
        }
      }
    }
  }

  /** A path listed twice has its field rewritten twice. */
  lemma RewriteFieldsTwice(path: string, m: Manifest, rw: string -> string)
    requires path in m.fields
    ensures RewriteFields([path, path], m, rw).fields[path] == RewriteValue(RewriteValue(m.fields[path], rw), rw)
  {
    assert [path, path][1..] == [path];
    assert [path][1..] == [];
  }

  /** Two passes over the same distinct paths compose field by field. */
  lemma RewriteFieldsCompose(paths: seq<string>, m: Manifest, rw1: string -> string, rw2: string -> string)
    requires Distinct(paths)
    ensures forall p :: p in m.fields && p in paths ==>
      RewriteFields(paths, RewriteFields(paths, m, rw1), rw2).fields[p]
        == RewriteValue(RewriteValue(m.fields[p], rw1), rw2)
  {
    RewriteFieldsOnce(paths, m, rw1);
    RewriteFieldsOnce(paths, RewriteFields(paths, m, rw1), rw2);
  }

  /** A second pass that gives back every entry of every mapped field gives
      back the whole manifest. */
  lemma RewriteFieldsUndone(paths: seq<string>, m: Manifest, rw1: string -> string, rw2: string -> string)
    requires Distinct(paths)
    requires forall p, k :: p in m.fields && p in paths && 0 <= k < |m.fields[p]| ==>
      rw2(rw1(m.fields[p][k])) == m.fields[p][k]
    ensures RewriteFields(paths, RewriteFields(paths, m, rw1), rw2) == m
  {
    var r := RewriteFields(paths, RewriteFields(paths, m, rw1), rw2);
    RewriteFieldsCompose(paths, m, rw1, rw2);
    forall p | p in m.fields
      ensures r.fields[p] == m.fields[p]
    {
      if p in paths {
        RewriteValueUndone(m.fields[p], rw1, rw2);
      }
    }
    assert r.fields == m.fields;
  }

  /** Cleaning up after preparing gives the manifest back when every mapped
      entry is clean and holds the package placeholder. */
  lemma CleanupAfterPrepare(cfg: Config, m: Manifest)
    requires Distinct(cfg.mapPaths)
    requires forall p, k :: p in m.fields && p in cfg.mapPaths && 0 <= k < |m.fields[p]| ==>
      CleanEntry(m.fields[p][k]) && Contains(m.fields[p][k], PACKAGE_DIR)
    ensures ChangeProjectConfig(cfg, ChangeProjectConfig(cfg, m, false), true) == m
  {
    forall p, k | p in m.fields && p in cfg.mapPaths && 0 <= k < |m.fields[p]|
      ensures RewriteEntry(RewriteEntry(m.fields[p][k], Stage), Revert) == m.fields[p][k]
    {
      RevertRestoresPackageEntry(m.fields[p][k]);
    }
    RewriteFieldsUndone(cfg.mapPaths, m, Pass(Stage), Pass(Revert));
  }

  /** The corrected revert gives back every manifest of clean entries. */
  lemma RestoreAfterPrepare(cfg: Config, m: Manifest)
    requires Distinct(cfg.mapPaths)
    requires forall p, k :: p in m.fields && p in cfg.mapPaths && 0 <= k < |m.fields[p]| ==>
      CleanEntry(m.fields[p][k])
    ensures RewriteFields(cfg.mapPaths, ChangeProjectConfig(cfg, m, false), RestoreEntry) == m
  {
    forall p, k | p in m.fields && p in cfg.mapPaths && 0 <= k < |m.fields[p]|
      ensures RestoreEntry(RewriteEntry(m.fields[p][k], Stage)) == m.fields[p][k]
    {
      RestoreAfterStage(m.fields[p][k]);
    }
    RewriteFieldsUndone(cfg.mapPaths, m, Pass(Stage), RestoreEntry);
  }

  /** A second pass of an entry rewrite that is idempotent on every mapped
      entry leaves the manifest as the first pass left it. */
  lemma RewriteFieldsSettled(paths: seq<string>, m: Manifest, rw: string -> string)
    requires Distinct(paths)
    requires forall p, k :: p in m.fields && p in paths && 0 <= k < |m.fields[p]| ==>
      rw(rw(m.fields[p][k])) == rw(m.fields[p][k])
    ensures RewriteFields(paths, RewriteFields(paths, m, rw), rw) == RewriteFields(paths, m, rw)
  {
    var once := RewriteFields(paths, m, rw);
    var twice := RewriteFields(paths, once, rw);
    RewriteFieldsCompose(paths, m, rw, rw);
    RewriteFieldsOnce(paths, m, rw);
    forall p | p in m.fields
      ensures twice.fields[p] == once.fields[p]
    {
      if p in paths {
        var v := m.fields[p];
        assert RewriteValue(RewriteValue(v, rw), rw) == RewriteValue(v, rw);
      }
    }
    assert twice.fields == once.fields;
  }

  /** Preparing twice is preparing once, for entries that, once their first
      staging folder is cut out, have none before their package placeholder. */
  lemma PrepareIdempotent(cfg: Config, m: Manifest)
    requires Distinct(cfg.mapPaths)
    requires forall p, k :: p in m.fields && p in cfg.mapPaths && 0 <= k < |m.fields[p]| ==>
      NoStageBeforePackage(StripStage(m.fields[p][k]))
    ensures ChangeProjectConfig(cfg, ChangeProjectConfig(cfg, m, false), false) == ChangeProjectConfig(cfg, m, false)
  {
    forall p, k | p in m.fields && p in cfg.mapPaths && 0 <= k < |m.fields[p]|
      ensures RewriteEntry(RewriteEntry(m.fields[p][k], Stage), Stage) == RewriteEntry(m.fields[p][k], Stage)
    {
      StageIdempotent(m.fields[p][k]);
    }
    RewriteFieldsSettled(cfg.mapPaths, m, Pass(Stage));
  }
}

=== FILE: rewrite.dfy ===
/** The manifest rewrite of `changeProjectConfig` (bin/bin.js): every entry
    of every mapped directory list is moved under the staging folder when
    preparing, and taken out of it when reverting. */
module Rewrite {
  import opened Wrappers
  import opened Strings
  import opened Separators
  import opened Markers

  /** Which way an entry is rewritten: the two values of the `revert` flag. */
  datatype Direction = Stage | Revert

  /** `dir.replace(".deloreanbuild", "")`: only the first staging marker goes. */
  function StripStage(dir: string): (r: string)
    ensures r == dir <==> !Contains(dir, STAGE_DIR)
    ensures Contains(dir, STAGE_DIR) ==> |r| + |STAGE_DIR| == |dir|
  {
    StageDirFacts();
    ReplaceFirst(dir, STAGE_DIR, "")
  }

  /** The staging step before normalisation: the staging folder is put right
      after the first package placeholder, or in front of the entry when it
      has none. */
  function AddStage(dir: string): (r: string)
    ensures |r| == |dir| + |STAGE_DIR| + (if Contains(dir, PACKAGE_DIR) then 2 else 1)
  {
    if Contains(dir, PACKAGE_DIR) then ReplaceFirst(dir, PACKAGE_DIR, PACKAGE_DIR + "/" + STAGE_DIR + "/")
    else STAGE_DIR + "/" + dir
  }

  /** The staging step always leaves a staging folder in the entry. */
  lemma AddStageNamesStage(dir: string)
    ensures Contains(AddStage(dir), STAGE_DIR)
  {
    if Contains(dir, PACKAGE_DIR) {
      StageInserted(dir, Find(dir, PACKAGE_DIR).value);
    } else {
      FindAtStart(STAGE_DIR, "/" + dir);
      SeqAssoc(STAGE_DIR, "/", dir);
    }
  }

  /** Putting the staging folder after the first placeholder leaves it in
      the entry. */
  lemma StageInserted(dir: string, p: nat)
    requires Find(dir, PACKAGE_DIR) == Some(p)
    ensures Contains(ReplaceFirst(dir, PACKAGE_DIR, PACKAGE_DIR + "/" + STAGE_DIR + "/"), STAGE_DIR)
  {
    var rest := dir[p + |PACKAGE_DIR|..];
    ReplaceFirstAt(dir, PACKAGE_DIR, PACKAGE_DIR + "/" + STAGE_DIR + "/", p);
    assert dir[..p] + (PACKAGE_DIR + "/" + STAGE_DIR + "/") + rest
        == (dir[..p] + PACKAGE_DIR + "/") + STAGE_DIR + ("/" + rest);
    OccursInMiddle(dir[..p] + PACKAGE_DIR + "/", STAGE_DIR, "/" + rest);
    OccursContains((dir[..p] + PACKAGE_DIR + "/") + STAGE_DIR + ("/" + rest), STAGE_DIR, |dir[..p] + PACKAGE_DIR + "/"|);
  }

  /** The corrected revert: drop the staging folder together with the
      separator staging put after it, so that a plain entry comes back as it
      was instead of gaining a leading `/`. */
  function RestoreEntry(dir: string): (r: string)
    ensures NoDoubleSlash(r)
    ensures |r| <= |dir|
  {
    UnifyNoDoubleSlash(ReplaceFirst(dir, STAGE_DIR + "/", ""));
    Unify(ReplaceFirst(dir, STAGE_DIR + "/", ""))
  }

  /** One element of `value.map(dir => ...)`: strip the staging marker,
      prefix it again when staging, and collapse separator runs. */
  function RewriteEntry(dir: string, d: Direction): (r: string)
    ensures NoDoubleSlash(r)
    ensures d == Revert ==> |r| <= |dir|
  {
    match d
    case Stage => UnifyNoDoubleSlash(AddStage(StripStage(dir))); Unify(AddStage(StripStage(dir)))
    case Revert => UnifyNoDoubleSlash(StripStage(dir)); Unify(StripStage(dir))
  }

  // ---------------------------------------------------------------------
  // The shape of a staged entry.
  // ---------------------------------------------------------------------

  /** What staging puts in place of the package placeholder, without the
      trailing separator. */
  const STAGED_ROOT: string := PACKAGE_DIR + "/" + STAGE_DIR

  /** The staged root is unified, starts with `$` and ends with the staging
      folder's last character, so normalisation never reaches across it. */
  lemma StagedRootFacts()
    ensures |STAGED_ROOT| == 29 && STAGED_ROOT[0] == '$' && STAGED_ROOT[28] == 'd'
    ensures Unify(STAGED_ROOT) == STAGED_ROOT
  {
    StageDirFacts();
    PackageDirFacts();
    UnifySlashJoin(PACKAGE_DIR, STAGE_DIR);
  }

  /** The package placeholder holds no staging folder. */
  lemma PlaceholderHasNoStage()
    ensures Absent(PACKAGE_DIR, STAGE_DIR) && !Contains(PACKAGE_DIR, STAGE_DIR)
  {
    StageDirFacts();
    PackageDirFacts();
    forall j | OccursAt(PACKAGE_DIR, STAGE_DIR, j)
      ensures false
    {
      OccursAtChar(PACKAGE_DIR, STAGE_DIR, j, 0);
    }
  }

  /** `u${package.dir}/.deloreanbuild<y>` read as the package head, a
      separator, the staging folder and the rest. */
  lemma Regroup(u: string, y: string)
    ensures u + STAGED_ROOT + y == (u + PACKAGE_DIR) + "/" + STAGE_DIR + y
  {
    SeqAssoc(u, PACKAGE_DIR + "/", STAGE_DIR);
    SeqAssoc(u, PACKAGE_DIR, "/");
  }

  /** Staging an entry without a package placeholder puts the staging folder
      in front, joined by one separator. */
  lemma StagePlainEntry(e: string)
    requires !Contains(StripStage(e), PACKAGE_DIR)
    ensures RewriteEntry(e, Stage) == STAGE_DIR + Unify("/" + StripStage(e))
  {
    StageDirFacts();
    var s := StripStage(e);
    SeqAssoc(STAGE_DIR, "/", s);
    NoSlashNoDouble(STAGE_DIR);
    UnifyIdentity(STAGE_DIR);
    UnifyConcat(STAGE_DIR, "/" + s);
  }

  /** Staging an entry with a package placeholder puts the staging folder
      right after its first occurrence; text before and after is only
      separator-normalised. */
  lemma StagePackageEntry(e: string, p: nat)
    requires Find(StripStage(e), PACKAGE_DIR) == Some(p)
    ensures p + |PACKAGE_DIR| <= |StripStage(e)|
    ensures RewriteEntry(e, Stage)
         == Unify(StripStage(e)[..p]) + STAGED_ROOT + Unify("/" + StripStage(e)[p + |PACKAGE_DIR|..])
  {
    var s := StripStage(e);
    var tail := s[p + |PACKAGE_DIR|..];
    ReplaceFirstAt(s, PACKAGE_DIR, STAGED_ROOT + "/", p);
    assert AddStage(s) == s[..p] + (STAGED_ROOT + "/") + tail;
    SeqAssoc(s[..p], STAGED_ROOT, "/");
    SeqAssoc(s[..p] + STAGED_ROOT, "/", tail);
    StagedRootFacts();
    UnifyAround(s[..p], STAGED_ROOT, "/" + tail);
  }

  /** Every staged entry names the staging folder. */
  lemma StagedHasStageDir(e: string)
    ensures Contains(RewriteEntry(e, Stage), STAGE_DIR)
  {
    var s := StripStage(e);
    match Find(s, PACKAGE_DIR)
    case None =>
      StagePlainEntry(e);
      FindAtStart(STAGE_DIR, Unify("/" + s));
    case Some(p) =>
      StagePackageEntry(e, p);
      var u := Unify(s[..p]);
      var y := Unify("/" + s[p + |PACKAGE_DIR|..]);
      var r := u + STAGED_ROOT + y;
      Regroup(u, y);
      OccursInMiddle(u + PACKAGE_DIR + "/", STAGE_DIR, y);
      OccursContains(r, STAGE_DIR, |u + PACKAGE_DIR + "/"|);
  }

  // ---------------------------------------------------------------------
  // Removing the staging folder again.
  // ---------------------------------------------------------------------

  /** Stripping a staged plain entry removes exactly the leading folder. */
  lemma StripStagedPlain(y: string)
    ensures StripStage(STAGE_DIR + y) == y
  {
    FindAtStart(STAGE_DIR, y);
    ReplaceFirstAt(STAGE_DIR + y, STAGE_DIR, "", 0);
    assert (STAGE_DIR + y)[|STAGE_DIR|..] == y;
  }

  /** Stripping `x/.deloreanbuild<y>` removes the folder and keeps the
      separator before it, when `x` has no staging folder of its own. */
  lemma StripStagedPackage(x: string, y: string)
    requires !Contains(x, STAGE_DIR)
    ensures StripStage(x + "/" + STAGE_DIR + y) == x + "/" + y
  {
    StageDirFacts();
    AbsentExtend(x, '/', STAGE_DIR);
    FindAtStart(STAGE_DIR, y);
    var s := x + "/" + STAGE_DIR + y;
    assert s == (x + "/") + (STAGE_DIR + y);
    FindAtJoin(x + "/", STAGE_DIR + y, STAGE_DIR);
    ReplaceFirstAt(s, STAGE_DIR, "", |x| + 1);
    assert s[..|x| + 1] == x + "/";
    assert s[|x| + 1 + |STAGE_DIR|..] == y;
  }

  /** The text up to and including the first package placeholder, once
      normalised, still has no staging folder when the text before the
      placeholder had none. */
  lemma HeadKeepsNoStage(s: string, p: nat)
    requires Find(s, PACKAGE_DIR) == Some(p)
    requires !Contains(s[..p], STAGE_DIR)
    ensures p + |PACKAGE_DIR| <= |s|
    ensures Unify(s[..p + |PACKAGE_DIR|]) == Unify(s[..p]) + PACKAGE_DIR
    ensures !Contains(Unify(s[..p]) + PACKAGE_DIR, STAGE_DIR)
  {
    var n := p + |PACKAGE_DIR|;
    PrefixThrough(s, PACKAGE_DIR, p);
    assert Unify(s[..n]) == Unify(s[..p]) + PACKAGE_DIR by {
      PackageDirFacts();
      NoSlashNoDouble(PACKAGE_DIR);
      UnifyIdentity(PACKAGE_DIR);
      UnifyConcat(s[..p], PACKAGE_DIR);
    }
    assert Absent(Unify(s[..p]) + PACKAGE_DIR, STAGE_DIR) by {
      StageDirFacts();
      PackageDirFacts();
      UnifyKeepsAbsent(s[..p], STAGE_DIR);
      PlaceholderHasNoStage();
      AbsentJoin(Unify(s[..p]), PACKAGE_DIR, STAGE_DIR);
    }
  }

  /** Reverting a staged entry that had no package placeholder does not give
      it back: the separator staging inserted stays in front. */
  lemma RevertAfterStagePlain(e: string)
    requires !Contains(StripStage(e), PACKAGE_DIR)
    ensures RewriteEntry(RewriteEntry(e, Stage), Revert) == Unify("/" + StripStage(e))
  {
    var s := StripStage(e);
    StagePlainEntry(e);
    StripStagedPlain(Unify("/" + s));
    UnifyIdempotent("/" + s);
  }

  /** The smallest witness: `src` is staged to `.deloreanbuild/src` and
      reverted to `/src`. */
  lemma RevertPlainCounterexample()
    ensures RewriteEntry("src", Stage) == STAGE_DIR + "/src"
    ensures RewriteEntry(RewriteEntry("src", Stage), Revert) == "/src"
  {
    var e := "src";
    assert CleanEntry(e) && !Contains(e, PACKAGE_DIR);
    StagePlainCleanEntry(e);
    RevertPrefixesPlainEntry(e);
  }

  /** A staged package entry read as its normalised head up to the
      placeholder, a separator, the staging folder and the normalised rest. */
  lemma StagedPackageForm(e: string, p: nat)
    requires Find(StripStage(e), PACKAGE_DIR) == Some(p)
    requires !Contains(StripStage(e)[..p], STAGE_DIR)
    ensures p + |PACKAGE_DIR| <= |StripStage(e)|
    ensures Unify(StripStage(e)[..p + |PACKAGE_DIR|]) == Unify(StripStage(e)[..p]) + PACKAGE_DIR
    ensures !Contains(Unify(StripStage(e)[..p]) + PACKAGE_DIR, STAGE_DIR)
    ensures RewriteEntry(e, Stage)
         == (Unify(StripStage(e)[..p]) + PACKAGE_DIR) + "/" + STAGE_DIR
            + Unify("/" + StripStage(e)[p + |PACKAGE_DIR|..])
  {
    var s := StripStage(e);
    HeadKeepsNoStage(s, p);
    StagePackageEntry(e, p);
    Regroup(Unify(s[..p]), Unify("/" + s[p + |PACKAGE_DIR|..]));
  }

  /** Reverting `x/.deloreanbuild<y>` keeps the separator before the folder. */
  lemma RevertStaged(x: string, y: string)
    requires !Contains(x, STAGE_DIR)
    ensures RewriteEntry(x + "/" + STAGE_DIR + y, Revert) == Unify(x + "/" + y)
  {
    StripStagedPackage(x, y);
  }

  /** The first package placeholder ends in `}`. */
  lemma PlaceholderEnd(s: string, p: nat)
    requires Find(s, PACKAGE_DIR) == Some(p)
    ensures p + |PACKAGE_DIR| <= |s| && s[p + |PACKAGE_DIR| - 1] == '}'
  {
    OccursAtChar(s, PACKAGE_DIR, p, |PACKAGE_DIR| - 1);
  }

  /** Reverting a staged entry whose package placeholder is followed by a
      separator gives back the entry with its first staging folder cut
      out, normalised, provided no second staging folder remains. */
  lemma RevertAfterStagePackage(e: string, p: nat)
    requires !Contains(StripStage(e), STAGE_DIR)
    requires Find(StripStage(e), PACKAGE_DIR) == Some(p)
    requires p + |PACKAGE_DIR| < |StripStage(e)| && StripStage(e)[p + |PACKAGE_DIR|] == '/'
    ensures RewriteEntry(RewriteEntry(e, Stage), Revert) == Unify(StripStage(e))
  {
    var s := StripStage(e);
    var n := p + |PACKAGE_DIR|;
    AbsentPrefix(s, STAGE_DIR, p);
    StagedPackageForm(e, p);
    RevertStaged(Unify(s[..p]) + PACKAGE_DIR, Unify("/" + s[n..]));
    PlaceholderEnd(s, p);
    JoinBack(s[..n], s[n..]);
    SplitAt(s, n);
  }

  // ---------------------------------------------------------------------
  // Staging twice.
  // ---------------------------------------------------------------------

  /** Staging a staged plain entry changes nothing. */
  lemma StageIdempotentPlain(e: string)
    requires !Contains(StripStage(e), PACKAGE_DIR)
    ensures RewriteEntry(RewriteEntry(e, Stage), Stage) == RewriteEntry(e, Stage)
  {
    PackageDirFacts();
    var s := StripStage(e);
    var y := Unify("/" + s);
    StagePlainEntry(e);
    StripStagedPlain(y);
    assert "/" + s == ['/'] + s;
    AbsentPrepend('/', s, PACKAGE_DIR);
    UnifyKeepsAbsent("/" + s, PACKAGE_DIR);
    StagePlainEntry(RewriteEntry(e, Stage));
    UnifyNoDoubleSlash("/" + s);
    UnifyLeadingSlash(y);
  }

  /** Before the first package placeholder there is none, and the
      normalised text before it is its own normal form. */
  lemma HeadFacts(s: string, p: nat)
    requires Find(s, PACKAGE_DIR) == Some(p)
    ensures !Contains(Unify(s[..p]), PACKAGE_DIR)
    ensures Unify(Unify(s[..p])) == Unify(s[..p])
  {
    PackageDirFacts();
    AbsentBeforeFirst(s, PACKAGE_DIR, p);
    UnifyKeepsAbsent(s[..p], PACKAGE_DIR);
    UnifyIdempotent(s[..p]);
  }

  /** The first package placeholder of `u${package.dir}/<y>` sits right after `u`
      when `u` has none. */
  lemma FindPackageAfterHead(u: string, y: string)
    requires !Contains(u, PACKAGE_DIR)
    ensures Find(u + PACKAGE_DIR + "/" + y, PACKAGE_DIR) == Some(|u|)
  {
    PackageDirFacts();
    FindAtStart(PACKAGE_DIR, "/" + y);
    SeqAssoc(u, PACKAGE_DIR, "/" + y);
    SeqAssoc(u + PACKAGE_DIR, "/", y);
    FindAtJoin(u, PACKAGE_DIR + ("/" + y), PACKAGE_DIR);
  }

  /** A staged package entry in normal form is staged to itself. */
  lemma RestageStaged(u: string, y: string)
    requires !Contains(u, PACKAGE_DIR) && Unify(u) == u
    requires !Contains(u + PACKAGE_DIR, STAGE_DIR)
    requires |y| > 0 && y[0] == '/' && NoDoubleSlash(y)
    ensures RewriteEntry(u + STAGED_ROOT + y, Stage) == u + STAGED_ROOT + y
  {
    var z := u + STAGED_ROOT + y;
    var t := u + PACKAGE_DIR + "/" + y;
    Regroup(u, y);
    StripStagedPackage(u + PACKAGE_DIR, y);
    assert StripStage(z) == t;
    FindPackageAfterHead(u, y);
    StagePackageEntry(z, |u|);
    assert t[..|u|] == u && t[|u| + |PACKAGE_DIR|..] == "/" + y by {
      var head := u + PACKAGE_DIR;
      SeqAssoc(head, "/", y);
      Slices(head, "/" + y);
      Slices(u, PACKAGE_DIR);
    }
    UnifyDropSlash("/" + y);
    UnifyLeadingSlash(y);
  }

  /** Staging a staged package entry changes nothing, provided no staging
      folder is left before the placeholder once the first is cut out. */
  lemma StageIdempotentPackage(e: string, p: nat)
    requires Find(StripStage(e), PACKAGE_DIR) == Some(p)
    requires !Contains(StripStage(e)[..p], STAGE_DIR)
    ensures RewriteEntry(RewriteEntry(e, Stage), Stage) == RewriteEntry(e, Stage)
  {
    var s := StripStage(e);
    var rest := "/" + s[p + |PACKAGE_DIR|..];
    StagedPackageForm(e, p);
    StagePackageEntry(e, p);
    HeadFacts(s, p);
    UnifyNoDoubleSlash(rest);
    RestageStaged(Unify(s[..p]), Unify(rest));
  }

  /** No staging folder before the first package placeholder; true of
      every text without a placeholder. */
  predicate NoStageBeforePackage(s: string) {
    match Find(s, PACKAGE_DIR)
    case None => true
    case Some(p) => !Contains(s[..p], STAGE_DIR)
  }

  /** Staging is idempotent on every entry without a package placeholder,
      and on every package entry that, once its first staging folder is cut
      out, has no staging folder before the placeholder. */
  lemma StageIdempotent(e: string)
    requires NoStageBeforePackage(StripStage(e))
    ensures RewriteEntry(RewriteEntry(e, Stage), Stage) == RewriteEntry(e, Stage)
  {
    match Find(StripStage(e), PACKAGE_DIR)
    case None => StageIdempotentPlain(e);
    case Some(p) => StageIdempotentPackage(e, p);
  }

  // ---------------------------------------------------------------------
  // Round trips.
  // ---------------------------------------------------------------------

  /** An entry as a project lists it before staging: no staging folder, no
      doubled separator, and either a package placeholder followed by a
      separator or no placeholder and no leading separator. */
  predicate CleanEntry(e: string) {
    !Contains(e, STAGE_DIR) && NoDoubleSlash(e) &&
    match Find(e, PACKAGE_DIR)
    case None => |e| == 0 || e[0] != '/'
    case Some(p) => p + |PACKAGE_DIR| < |e| && e[p + |PACKAGE_DIR|] == '/'
  }

  /** For a clean entry with a package placeholder, revert undoes stage. */
  lemma RevertRestoresPackageEntry(e: string)
    requires CleanEntry(e) && Contains(e, PACKAGE_DIR)
    ensures RewriteEntry(RewriteEntry(e, Stage), Revert) == e
  {
    assert StripStage(e) == e;
    RevertAfterStagePackage(e, Find(e, PACKAGE_DIR).value);
    UnifyIdentity(e);
  }

  /** For a clean entry without a package placeholder, revert of stage gives
      the entry back with a leading separator. */
  lemma RevertPrefixesPlainEntry(e: string)
    requires CleanEntry(e) && !Contains(e, PACKAGE_DIR)
    ensures RewriteEntry(RewriteEntry(e, Stage), Revert) == "/" + e
    ensures RewriteEntry(RewriteEntry(e, Stage), Revert) != e
  {
    assert StripStage(e) == e;
    RevertAfterStagePlain(e);
    NoDoubleSlashCons(e);
    UnifyIdentity("/" + e);
  }

  /** The corrected revert undoes stage on a clean plain entry. */
  lemma RestoreAfterStagePlain(e: string)
    requires CleanEntry(e) && !Contains(e, PACKAGE_DIR)
    ensures RestoreEntry(RewriteEntry(e, Stage)) == e
  {
    var sep := STAGE_DIR + "/";
    StagePlainCleanEntry(e);
    var staged := RewriteEntry(e, Stage);
    SeqAssoc(STAGE_DIR, "/", e);
    FindAtStart(sep, e);
    assert staged == sep + e;
    ReplaceFirstAt(staged, sep, "", 0);
    assert staged[..0] + "" + staged[|sep|..] == e;
    UnifyIdentity(e);
  }

  /** A clean plain entry is staged by putting `.deloreanbuild/` in front. */
  lemma StagePlainCleanEntry(e: string)
    requires CleanEntry(e) && !Contains(e, PACKAGE_DIR)
    ensures RewriteEntry(e, Stage) == STAGE_DIR + ("/" + e)
  {
    assert StripStage(e) == e;
    StagePlainEntry(e);
    NoDoubleSlashCons(e);
    UnifyIdentity("/" + e);
  }

  /** The staging folder with its trailing separator starts with the only
      `.` in it. */
  lemma StageSepFacts()
    ensures |STAGE_DIR + "/"| == 15
    ensures forall k :: 0 < k < |STAGE_DIR + "/"| ==> (STAGE_DIR + "/")[k] != (STAGE_DIR + "/")[0]
  {
    StageDirFacts();
    forall k | 0 < k < |STAGE_DIR + "/"|
      ensures (STAGE_DIR + "/")[k] != (STAGE_DIR + "/")[0]
    {
      if k < |STAGE_DIR| {
        assert (STAGE_DIR + "/")[k] == STAGE_DIR[k];
      }
    }
  }

  /** The corrected revert of `x/.deloreanbuild/<b>` drops the folder and the
      separator after it, when `x` has no staging folder of its own. */
  lemma RestoreStaged(x: string, b: string)
    requires !Contains(x, STAGE_DIR)
    requires |b| > 0 && b[0] == '/'
    ensures ReplaceFirst(x + "/" + STAGE_DIR + b, STAGE_DIR + "/", "") == x + b
  {
    var sep := STAGE_DIR + "/";
    var x' := x + "/";
    var rest := b[1..];
    var z := x + "/" + STAGE_DIR + b;
    assert Absent(x', sep) by {
      StageDirFacts();
      AbsentExtend(x, '/', STAGE_DIR);
      AbsentLonger(x', STAGE_DIR, "/");
    }
    assert b == "/" + rest;
    assert z == x' + (sep + rest) by {
      SeqAssoc(x', STAGE_DIR, "/" + rest);
      SeqAssoc(STAGE_DIR, "/", rest);
    }
    assert Find(z, sep) == Some(|x'|) by {
      StageSepFacts();
      FindAtStart(sep, rest);
      FindAtJoin(x', sep + rest, sep);
    }
    assert ReplaceFirst(z, sep, "") == x' + rest by {
      ReplaceFirstAt(z, sep, "", |x'|);
      assert z[..|x'|] == x' && z[|x'| + |sep|..] == rest;
    }
    SeqAssoc(x, "/", rest);
  }

  /** The corrected revert undoes stage on a clean package entry. */
  lemma RestoreAfterStagePackage(e: string, p: nat)
    requires CleanEntry(e) && Find(e, PACKAGE_DIR) == Some(p)
    ensures RestoreEntry(RewriteEntry(e, Stage)) == e
  {
    var n := p + |PACKAGE_DIR|;
    var h := e[..p];
    var b := e[n..];
    var staged := RewriteEntry(e, Stage);
    assert StripStage(e) == e;
    AbsentPrefix(e, STAGE_DIR, p);
    StagedPackageForm(e, p);
    assert Unify(h) == h by {
      NoDoubleSlashPrefix(e, p);
      UnifyIdentity(h);
    }
    assert Unify("/" + b) == b by {
      NoDoubleSlashSuffix(e, n);
      UnifyIdentity(b);
      UnifyDropSlash(b);
    }
    assert staged == (h + PACKAGE_DIR) + "/" + STAGE_DIR + b;
    assert ReplaceFirst(staged, STAGE_DIR + "/", "") == h + PACKAGE_DIR + b by {
      RestoreStaged(h + PACKAGE_DIR, b);
    }
    assert h + PACKAGE_DIR + b == e by {
      ReplaceFirstAt(e, PACKAGE_DIR, "", p);
    }
    UnifyIdentity(e);
  }

  /** The corrected revert undoes stage on every clean entry. */
  lemma RestoreAfterStage(e: string)
    requires CleanEntry(e)
    ensures RestoreEntry(RewriteEntry(e, Stage)) == e
  {
    match Find(e, PACKAGE_DIR)
    case None => RestoreAfterStagePlain(e);
    case Some(p) => RestoreAfterStagePackage(e, p);
  }

  // ---------------------------------------------------------------------
  // Entries no revert can give back.
  // ---------------------------------------------------------------------

  /** Staging forgets whether a plain entry started with a separator: `src`
      and `/src` are both staged to `.deloreanbuild/src`. */
  lemma StageMergesLeadingSeparator(e: string)
    requires !Contains(e, STAGE_DIR) && !Contains(e, PACKAGE_DIR)
    ensures RewriteEntry("/" + e, Stage) == RewriteEntry(e, Stage)
  {
    StageDirFacts();
    PackageDirFacts();
    AbsentPrepend('/', e, STAGE_DIR);
    AbsentPrepend('/', e, PACKAGE_DIR);
    assert StripStage("/" + e) == "/" + e;
    assert StripStage(e) == e;
    StagePlainEntry(e);
    StagePlainEntry("/" + e);
    UnifySlashSlash(e);
  }

  /** Staging forgets whether the package placeholder was followed by a
      separator: `${package.dir}src` and `${package.dir}/src` are staged to
      the same entry. */
  lemma StageMergesPlaceholderSeparator(u: string, y: string)
    requires !Contains(u, PACKAGE_DIR)
    requires !Contains(u + PACKAGE_DIR + y, STAGE_DIR)
    requires !Contains(u + PACKAGE_DIR + "/" + y, STAGE_DIR)
    ensures RewriteEntry(u + PACKAGE_DIR + "/" + y, Stage) == RewriteEntry(u + PACKAGE_DIR + y, Stage)
  {
    var e1 := u + PACKAGE_DIR + y;
    var e2 := u + PACKAGE_DIR + "/" + y;
    var n := |u| + |PACKAGE_DIR|;
    assert StripStage(e1) == e1 && StripStage(e2) == e2;
    assert Find(e1, PACKAGE_DIR) == Some(|u|) by {
      PackageDirFacts();
      FindAtStart(PACKAGE_DIR, y);
      SeqAssoc(u, PACKAGE_DIR, y);
      FindAtJoin(u, PACKAGE_DIR + y, PACKAGE_DIR);
    }
    FindPackageAfterHead(u, y);
    StagePackageEntry(e1, |u|);
    StagePackageEntry(e2, |u|);
    assert e1[..|u|] == u && e1[n..] == y by {
      Slices(u + PACKAGE_DIR, y);
      Slices(u, PACKAGE_DIR);
    }
    assert e2[..|u|] == u && e2[n..] == "/" + y by {
      SeqAssoc(u + PACKAGE_DIR, "/", y);
      Slices(u + PACKAGE_DIR, "/" + y);
      Slices(u, PACKAGE_DIR);
    }
    SeqAssoc("/", "/", y);
    UnifySlashSlash(y);
  }

  /** An entry ending in its only package placeholder is staged with a
      separator after the staging folder. */
  lemma StageAtPlaceholderEnd(u: string)
    requires !Contains(u, PACKAGE_DIR) && !Contains(u + PACKAGE_DIR, STAGE_DIR)
    ensures RewriteEntry(u + PACKAGE_DIR, Stage) == Unify(u) + STAGED_ROOT + "/"
  {
    var e := u + PACKAGE_DIR;
    assert StripStage(e) == e;
    assert Find(e, PACKAGE_DIR) == Some(|u|) by {
      PackageDirFacts();
      FindAtStart(PACKAGE_DIR, "");
      assert PACKAGE_DIR + "" == PACKAGE_DIR;
      FindAtJoin(u, PACKAGE_DIR, PACKAGE_DIR);
    }
    StagePackageEntry(e, |u|);
    Slices(u, PACKAGE_DIR);
    assert "/" + e[|u| + |PACKAGE_DIR|..] == "/";
    assert Unify("/") == "/";
  }

  /** The bare placeholder is staged to the staged root and a separator. */
  lemma StageBare()
    ensures RewriteEntry(PACKAGE_DIR, Stage) == STAGED_ROOT + "/"
  {
    PlaceholderHasNoStage();
    assert "" + PACKAGE_DIR == PACKAGE_DIR;
    StageAtPlaceholderEnd("");
    assert Unify("") == "";
  }

  /** `${package.dir}/` is staged like the bare placeholder. */
  lemma StageBareWithSeparator()
    ensures RewriteEntry(PACKAGE_DIR + "/", Stage) == RewriteEntry(PACKAGE_DIR, Stage)
  {
    StageDirFacts();
    PlaceholderHasNoStage();
    AbsentExtend(PACKAGE_DIR, '/', STAGE_DIR);
    assert "" + PACKAGE_DIR + "" == PACKAGE_DIR;
    assert "" + PACKAGE_DIR + "/" + "" == PACKAGE_DIR + "/";
    StageMergesPlaceholderSeparator("", "");
  }

  /** Reverting the staged root and a separator leaves the placeholder and
      a separator. */
  lemma RevertStagedRootSlash()
    ensures RewriteEntry(STAGED_ROOT + "/", Revert) == PACKAGE_DIR + "/"
  {
    PackageDirFacts();
    PlaceholderHasNoStage();
    RevertStaged(PACKAGE_DIR, "/");
    NoSlashNoDouble(PACKAGE_DIR);
    UnifyIdentity(PACKAGE_DIR);
    UnifyJoinUnified(PACKAGE_DIR, "/");
  }

  /** The bare placeholder is staged like `${package.dir}/`, and reverting
      it gives `${package.dir}/` back. */
  lemma StageBarePlaceholder()
    ensures RewriteEntry(PACKAGE_DIR, Stage) == STAGED_ROOT + "/"
    ensures RewriteEntry(PACKAGE_DIR + "/", Stage) == RewriteEntry(PACKAGE_DIR, Stage)
    ensures RewriteEntry(RewriteEntry(PACKAGE_DIR, Stage), Revert) == PACKAGE_DIR + "/"
  {
    StageBare();
    StageBareWithSeparator();
    RevertStagedRootSlash();
  }

  /** The text `/.deloreanbuild/` before a placeholder in the staged
      witness below. */
  lemma SlashedStageFacts()
    ensures |"/" + STAGE_DIR + "/"| == 16
    ensures ("/" + STAGE_DIR + "/")[1] == '.' && ("/" + STAGE_DIR + "/")[15] == '/'
    ensures !Contains("/" + STAGE_DIR + "/", PACKAGE_DIR)
    ensures Unify("/" + STAGE_DIR + "/") == "/" + STAGE_DIR + "/"
  {
    StageDirFacts();
    PackageDirFacts();
    var h := "/" + STAGE_DIR + "/";
    assert forall i :: 0 <= i < |h| ==> h[i] != '$' by {
      forall i | 0 <= i < |h|
        ensures h[i] != '$'
      {
        if 0 < i < 15 {
          assert h[i] == STAGE_DIR[i - 1];
        }
      }
    }
    AbsentWithoutFirst(h, PACKAGE_DIR);
    assert NoDoubleSlash(h) by {
      assert NoSlash(STAGE_DIR);
      forall i | 0 <= i < |h| - 1
        ensures !DoubleAt(h, i)
      {
        if i == 0 {
          assert h[1] == STAGE_DIR[0];
        } else {
          assert h[i] == STAGE_DIR[i - 1];
        }
      }
    }
    UnifyIdentity(h);
  }

  /** Staging `.deloreanbuild/.deloreanbuild/${package.dir}<b>` keeps the
      second marker in front of the placeholder. */
  lemma StageWitnessOnce(b: string)
    ensures Find(StripStage(STAGE_DIR + ("/" + STAGE_DIR + "/" + PACKAGE_DIR + b)), PACKAGE_DIR) == Some(16)
    ensures StripStage(STAGE_DIR + ("/" + STAGE_DIR + "/" + PACKAGE_DIR + b))[..16] == "/" + STAGE_DIR + "/"
    ensures RewriteEntry(STAGE_DIR + ("/" + STAGE_DIR + "/" + PACKAGE_DIR + b), Stage)
         == ("/" + STAGE_DIR + "/") + STAGED_ROOT + Unify("/" + b)
  {
    var h := "/" + STAGE_DIR + "/";
    var y := h + PACKAGE_DIR + b;
    var e := STAGE_DIR + y;
    SlashedStageFacts();
    StripStagedPlain(y);
    assert Find(y, PACKAGE_DIR) == Some(|h|) by {
      PackageDirFacts();
      FindAtStart(PACKAGE_DIR, b);
      SeqAssoc(h, PACKAGE_DIR, b);
      FindAtJoin(h, PACKAGE_DIR + b, PACKAGE_DIR);
    }
    StagePackageEntry(e, |h|);
    assert y[..|h|] == h && y[|h| + |PACKAGE_DIR|..] == b by {
      SeqAssoc(h, PACKAGE_DIR, b);
      Slices(h, PACKAGE_DIR + b);
      Slices(PACKAGE_DIR, b);
    }
  }

  /** Stripping an entry whose marker sits right after a leading `/`. */
  lemma StripAfterSlash(s: string)
    requires |s| > 0 && s[0] == '/' && OccursAt(s, STAGE_DIR, 1)
    ensures StripStage(s) == s[..1] + s[1 + |STAGE_DIR|..]
  {
    StageDirFacts();
    assert Find(s, STAGE_DIR) == Some(1) by {
      AbsentWithoutFirst(s[..1], STAGE_DIR);
      FindAtJoin(s[..1], s[1..], STAGE_DIR);
      SplitAt(s, 1);
    }
    ReplaceFirstAt(s, STAGE_DIR, "", 1);
  }

  /** Staging that result again moves the second marker behind the
      placeholder: the result starts with `/$`. */
  lemma StageWitnessTwice(s: string)
    requires |s| > 15 && s[0] == '/' && s[15] == '/'
    requires OccursAt(s, STAGE_DIR, 1) && OccursAt(s, STAGED_ROOT, 16)
    ensures |RewriteEntry(s, Stage)| > 1 && RewriteEntry(s, Stage)[1] == '$'
  {
    StripAfterSlash(s);
    var t := StripStage(s);
    assert Find(t, PACKAGE_DIR) == Some(2) by {
      PackageDirFacts();
      StagedRootFacts();
      assert OccursAt(t[2..], PACKAGE_DIR, 0) by {
        assert t[2..][..|PACKAGE_DIR|] == s[16..16 + |PACKAGE_DIR|];
        assert s[16..16 + |STAGED_ROOT|][..|PACKAGE_DIR|] == PACKAGE_DIR;
      }
      assert t[..2] == "//";
      AbsentWithoutFirst(t[..2], PACKAGE_DIR);
      FindAtJoin(t[..2], t[2..], PACKAGE_DIR);
      SplitAt(t, 2);
    }
    assert Unify(t[..2]) == "/" by {
      assert t[..2] == "//";
    }
    StagePackageEntry(s, 2);
    StagedRootFacts();
  }


  /** The slashed staging folder in front of any text holds the marker at
      index 1. */
  lemma SlashedStageOccurs(x: string)
    ensures OccursAt(("/" + STAGE_DIR + "/") + x, STAGE_DIR, 1)
  {
    OccursInMiddle("/", STAGE_DIR, "/" + x);
    SeqAssoc("/" + STAGE_DIR, "/", x);
  }

  /** Outside `StageIdempotent`'s precondition staging is not idempotent:
      `.deloreanbuild/.deloreanbuild/${package.dir}/src` is staged to
      `/.deloreanbuild/${package.dir}/.deloreanbuild/src`, and that again to
      `/${package.dir}/.deloreanbuild/.deloreanbuild/src`. */
  lemma StageTwiceCounterexample()
    ensures !NoStageBeforePackage(StripStage(STAGE_DIR + ("/" + STAGE_DIR + "/" + PACKAGE_DIR + "/src")))
    ensures RewriteEntry(RewriteEntry(STAGE_DIR + ("/" + STAGE_DIR + "/" + PACKAGE_DIR + "/src"), Stage), Stage)
         != RewriteEntry(STAGE_DIR + ("/" + STAGE_DIR + "/" + PACKAGE_DIR + "/src"), Stage)
  {
    var h := "/" + STAGE_DIR + "/";
    var e := STAGE_DIR + (h + PACKAGE_DIR + "/src");
    var once := RewriteEntry(e, Stage);
    var rest := Unify("/" + "/src");
    StageWitnessOnce("/src");
    SlashedStageFacts();
    assert Contains(h, STAGE_DIR) by {
      SlashedStageOccurs("");
      assert h + "" == h;
      OccursContains(h, STAGE_DIR, 1);
    }
    assert OccursAt(once, STAGE_DIR, 1) by {
      SlashedStageOccurs(STAGED_ROOT + rest);
      SeqAssoc(h, STAGED_ROOT, rest);
    }
    assert OccursAt(once, STAGED_ROOT, 16) by {
      OccursInMiddle(h, STAGED_ROOT, rest);
    }
    assert once[0] == '/' && once[1] == '.' && once[15] == '/';
    StageWitnessTwice(once);
    assert once[1] != RewriteEntry(once, Stage)[1];
  }
}

=== FILE: sourcepaths.dfy ===
/** `getSourcePaths()` (bin/bin.js): the directories `moveProjectFiles`
    copies into the staging folder, read from the manifest fields the rules
    file maps. */
module SourcePaths {
  import opened Wrappers
  import opened Strings
  import opened Separators
  import opened Markers
  import opened FirstSeen
  import opened Manifest
  import opened Expand
  import opened Rewrite

  /** The contribution of one rule path: nothing for a missing or falsy
      field, otherwise its expanded and de-duplicated entries. */
  function PathDirs(m: Manifest, path: string, toolkits: seq<string>, builds: seq<string>): (r: seq<string>)
    ensures path !in m.fields ==> r == []
    ensures Distinct(r)
  {
    match Lookup(m, path)
    case None => []
    case Some(value) => VisitEntries(value, toolkits, builds)
  }

  /** `paths.map(path => { ... output = output.concat(visitEntries(value)); })`:
      the contributions of the rule paths, in rule order. De-duplication
      happens inside each contribution only. */
  function CollectSourceDirs(paths: seq<string>, m: Manifest, toolkits: seq<string>, builds: seq<string>): (r: seq<string>)
    ensures (forall i :: 0 <= i < |paths| ==> paths[i] !in m.fields) ==> r == []
  {
    if |paths| == 0 then []
    else
      assert forall i :: 0 <= i < |paths[1..]| ==> paths[1..][i] == paths[i + 1];
      PathDirs(m, paths[0], toolkits, builds) + CollectSourceDirs(paths[1..], m, toolkits, builds)
  }

  /** The collected list of a split rule list is the two collected lists, joined. */
  lemma {:induction false} CollectConcat(a: seq<string>, b: seq<string>, m: Manifest, toolkits: seq<string>, builds: seq<string>)
    ensures CollectSourceDirs(a + b, m, toolkits, builds)
         == CollectSourceDirs(a, m, toolkits, builds) + CollectSourceDirs(b, m, toolkits, builds)
  {
    if |a| == 0 {
      assert a + b == b;
    } else {
      assert (a + b)[1..] == a[1..] + b;
      CollectConcat(a[1..], b, m, toolkits, builds);
      SeqAssoc(PathDirs(m, a[0], toolkits, builds), CollectSourceDirs(a[1..], m, toolkits, builds),
        CollectSourceDirs(b, m, toolkits, builds));
    }
  }

  /** A rule path whose field is missing or falsy contributes nothing:
      dropping it from the rule list changes nothing. */
  lemma FalsyPathContributesNothing(a: seq<string>, path: string, b: seq<string>, m: Manifest, toolkits: seq<string>, builds: seq<string>)
    requires path !in m.fields
    ensures CollectSourceDirs(a + [path] + b, m, toolkits, builds) == CollectSourceDirs(a + b, m, toolkits, builds)
  {
    var ca, cb := CollectSourceDirs(a, m, toolkits, builds), CollectSourceDirs(b, m, toolkits, builds);
    assert CollectSourceDirs([path], m, toolkits, builds) == [] by {
      assert [path][1..] == [];
    }
    assert CollectSourceDirs(a + [path], m, toolkits, builds) == ca by {
      CollectConcat(a, [path], m, toolkits, builds);
      assert ca + [] == ca;
    }
    CollectConcat(a + [path], b, m, toolkits, builds);
    CollectConcat(a, b, m, toolkits, builds);
  }

  /** A directory is collected exactly when some mapped, present field
      produces it as a candidate. */
  lemma {:induction false} CollectMembers(paths: seq<string>, m: Manifest, toolkits: seq<string>, builds: seq<string>, x: string)
    ensures x in CollectSourceDirs(paths, m, toolkits, builds) <==>
      exists i :: 0 <= i < |paths| && paths[i] in m.fields && x in Candidates(m.fields[paths[i]], toolkits, builds)
  {
    if |paths| > 0 {
      CollectMembers(paths[1..], m, toolkits, builds, x);
      if x in CollectSourceDirs(paths, m, toolkits, builds) && x !in PathDirs(m, paths[0], toolkits, builds) {
        var i :| 0 <= i < |paths[1..]| && paths[1..][i] in m.fields && x in Candidates(m.fields[paths[1..][i]], toolkits, builds);
        assert paths[i + 1] == paths[1..][i];
      }
      if exists i :: 0 <= i < |paths| && paths[i] in m.fields && x in Candidates(m.fields[paths[i]], toolkits, builds) {
        var i :| 0 <= i < |paths| && paths[i] in m.fields && x in Candidates(m.fields[paths[i]], toolkits, builds);
        if i > 0 {
          assert paths[1..][i - 1] == paths[i];
        }
      }
    }
  }

  /** De-duplication is per rule path: the same directory listed under two
      fields is collected twice. */
  lemma DuplicatesAcrossPaths(p1: string, p2: string, dir: string, m: Manifest, toolkits: seq<string>, builds: seq<string>)
    requires p1 in m.fields && p2 in m.fields && m.fields[p1] == [dir] && m.fields[p2] == [dir]
    requires !Contains(dir, TOOLKIT_NAME) && !Contains(dir, BUILD_ID)
    ensures CollectSourceDirs([p1, p2], m, toolkits, builds) == [dir, dir]
    ensures !Distinct(CollectSourceDirs([p1, p2], m, toolkits, builds))
  {
    PlainPathDirs(p1, dir, m, toolkits, builds);
    PlainPathDirs(p2, dir, m, toolkits, builds);
    CollectPair(p1, p2, m, toolkits, builds);
    Twice(dir);
  }

  /** A rule list of two paths collects their contributions in order. */
  lemma CollectPair(p1: string, p2: string, m: Manifest, toolkits: seq<string>, builds: seq<string>)
    ensures CollectSourceDirs([p1, p2], m, toolkits, builds)
         == PathDirs(m, p1, toolkits, builds) + PathDirs(m, p2, toolkits, builds)
  {
    assert [p1, p2][1..] == [p2];
    CollectSingle(p2, m, toolkits, builds);
  }

  /** A field holding one placeholder-free directory contributes exactly it. */
  lemma PlainPathDirs(path: string, dir: string, m: Manifest, toolkits: seq<string>, builds: seq<string>)
    requires path in m.fields && m.fields[path] == [dir]
    requires !Contains(dir, TOOLKIT_NAME) && !Contains(dir, BUILD_ID)
    ensures PathDirs(m, path, toolkits, builds) == [dir]
  {
    NoPlaceholders([dir], toolkits, builds);
  }

  lemma Twice(dir: string)
    ensures [dir] + [dir] == [dir, dir] && !Distinct([dir, dir])
  {
    assert [dir, dir][0] == [dir, dir][1];
  }

  /** A rule list of one path collects that path's contribution. */
  lemma CollectSingle(path: string, m: Manifest, toolkits: seq<string>, builds: seq<string>)
    ensures CollectSourceDirs([path], m, toolkits, builds) == PathDirs(m, path, toolkits, builds)
  {
    assert [path][1..] == [];
  }

  /** The plainest instance: `src` under both `classpath` and `overrides`. */
  lemma SrcCollectedTwice(toolkits: seq<string>, builds: seq<string>)
    ensures CollectSourceDirs(["classpath", "overrides"], Manifest(map["classpath" := ["src"], "overrides" := ["src"]]), toolkits, builds)
         == ["src", "src"]
  {
    assert !Contains("src", TOOLKIT_NAME) && !Contains("src", BUILD_ID) by {
      PlaceholderFacts();
    }
    DuplicatesAcrossPaths("classpath", "overrides", "src", Manifest(map["classpath" := ["src"], "overrides" := ["src"]]), toolkits, builds);
  }

  /** A single rule path whose entries hold no placeholder contributes its
      entries with repeats removed, in order of first appearance. */
  lemma SinglePathNoPlaceholders(path: string, m: Manifest, toolkits: seq<string>, builds: seq<string>)
    requires path in m.fields
    requires forall k :: 0 <= k < |m.fields[path]| ==>
      !Contains(m.fields[path][k], TOOLKIT_NAME) && !Contains(m.fields[path][k], BUILD_ID)
    ensures CollectSourceDirs([path], m, toolkits, builds) == Dedup(m.fields[path])
  {
    NoPlaceholders(m.fields[path], toolkits, builds);
    assert [path][1..] == [];
  }

  /** Without a `toolkits` list in the rules file, an entry naming the
      toolkit placeholder expands to nothing and is silently dropped. */
  lemma MissingToolkitsDropEntry(cfg: Config, e: string)
    requires cfg.toolkits.None? && Contains(e, TOOLKIT_NAME)
    ensures Candidates([e], cfg.ToolkitNames(), cfg.BuildIds()) == []
  {
    assert cfg.ToolkitNames() == [];
    assert [e][1..] == [];
    assert SpreadAll([e], TOOLKIT_NAME, []) == SpreadTpl(e, TOOLKIT_NAME, []) + SpreadAll([], TOOLKIT_NAME, []);
  }

  /** The clean-up of each collected directory in `output.map(dir => ...)`:
      the first staging marker is removed, then the first package
      placeholder becomes `.`. The call `l8.unify(dir, "/")` discards its
      result, so separators are not normalised. */
  function PostProcess(dir: string): (r: string)
    ensures |r| <= |dir|
    ensures r == dir <==> !Contains(dir, STAGE_DIR) && !Contains(dir, PACKAGE_DIR)
  {
    var s := StripStage(dir);
    if Contains(s, PACKAGE_DIR) then ReplaceFirst(s, PACKAGE_DIR, ".") else s
  }

  /** A directory naming neither marker is kept as it is. */
  lemma PostProcessUnmarked(dir: string)
    requires !Contains(dir, STAGE_DIR) && !Contains(dir, PACKAGE_DIR)
    ensures PostProcess(dir) == dir
  {
  }

  /** A directory with the package placeholder and no staging marker has
      its first placeholder, and nothing else, turned into `.`. */
  lemma PostProcessPackage(dir: string, p: nat)
    requires !Contains(dir, STAGE_DIR) && Find(dir, PACKAGE_DIR) == Some(p)
    ensures PostProcess(dir) == dir[..p] + "." + dir[p + |PACKAGE_DIR|..]
  {
    ReplaceFirstAt(dir, PACKAGE_DIR, ".", p);
  }

  /** The staging marker goes before the placeholder is looked for: the
      first marker is cut out wherever it is. */
  lemma PostProcessStaged(dir: string, i: nat)
    requires Find(dir, STAGE_DIR) == Some(i)
    requires !Contains(dir[..i] + dir[i + |STAGE_DIR|..], PACKAGE_DIR)
    ensures PostProcess(dir) == dir[..i] + dir[i + |STAGE_DIR|..]
  {
    ReplaceFirstAt(dir, STAGE_DIR, "", i);
    assert dir[..i] + "" == dir[..i];
  }

  /** The first placeholder of `u${package.dir}/<y>` becomes `.` when `u`
      has none. */
  lemma DotForPlaceholder(u: string, y: string)
    requires !Contains(u, PACKAGE_DIR)
    ensures Contains(u + PACKAGE_DIR + "/" + y, PACKAGE_DIR)
    ensures ReplaceFirst(u + PACKAGE_DIR + "/" + y, PACKAGE_DIR, ".") == u + "./" + y
  {
    FindPackageAfterHead(u, y);
    ReplaceFirstAt(u + PACKAGE_DIR + "/" + y, PACKAGE_DIR, ".", |u|);
    SeqAssoc(u + PACKAGE_DIR, "/", y);
    CutMiddle(u, PACKAGE_DIR, "/" + y);
    SeqAssoc(u + ".", "/", y);
  }

  /** A staged package directory loses its staging folder, and its
      placeholder becomes `.`; the separator staging put after the
      placeholder stays, so `${package.dir}/.deloreanbuild/src` (empty
      `u`, `y` = `/src`) comes out as `.//src`: the unify call that would
      have collapsed the doubled separator is discarded. */
  lemma PostProcessStagedPackage(u: string, y: string)
    requires !Contains(u, STAGE_DIR) && !Contains(u, PACKAGE_DIR)
    ensures PostProcess(u + PACKAGE_DIR + "/" + STAGE_DIR + y) == u + "./" + y
  {
    assert !Contains(u + PACKAGE_DIR, STAGE_DIR) by {
      StageDirFacts();
      PackageDirFacts();
      PlaceholderHasNoStage();
      AbsentJoin(u, PACKAGE_DIR, STAGE_DIR);
    }
    StripStagedPackage(u + PACKAGE_DIR, y);
    DotForPlaceholder(u, y);
  }

  /** Separator runs survive post-processing, although normalisation
      would collapse them: the unify call's result is discarded. */
  lemma PostProcessKeepsSeparatorRuns()
    ensures PostProcess("a//b") == "a//b"
    ensures Unify("a//b") == "a/b"
  {
    StageDirFacts();
    PackageDirFacts();
    assert Unify("/b") == "/b" by {
      assert Unify("b") == "b";
    }
    assert Unify("//b") == "/b";
  }

  /** `output.map(dir => ...)`: every collected directory post-processed, in order. */
  function PostProcessAll(dirs: seq<string>): (r: seq<string>)
    ensures |r| == |dirs|
    ensures forall k :: 0 <= k < |dirs| ==> r[k] == PostProcess(dirs[k])
  {
    if |dirs| == 0 then [] else [PostProcess(dirs[0])] + PostProcessAll(dirs[1..])
  }

  /** `getSourcePaths()`: `toolkits` and `builds` default to empty lists. */
  function GetSourcePaths(cfg: Config, m: Manifest): (r: seq<string>)
    ensures |r| == |CollectSourceDirs(cfg.mapPaths, m, cfg.ToolkitNames(), cfg.BuildIds())|
    ensures (forall i :: 0 <= i < |cfg.mapPaths| ==> cfg.mapPaths[i] !in m.fields) ==> r == []
  {
    PostProcessAll(CollectSourceDirs(cfg.mapPaths, m, cfg.ToolkitNames(), cfg.BuildIds()))
  }

  /** `y` is a candidate of some mapped field the manifest holds. */
  ghost predicate MappedCandidate(cfg: Config, m: Manifest, y: string) {
    exists i :: 0 <= i < |cfg.mapPaths| && cfg.mapPaths[i] in m.fields
      && y in Candidates(m.fields[cfg.mapPaths[i]], cfg.ToolkitNames(), cfg.BuildIds())
  }

  /** A directory is in the post-processed list exactly when it is the
      post-processed form of some listed directory. */
  lemma PostProcessAllMembers(dirs: seq<string>, x: string)
    ensures x in PostProcessAll(dirs) <==> exists y :: y in dirs && x == PostProcess(y)
  {
    if exists y :: y in dirs && x == PostProcess(y) {
      var y :| y in dirs && x == PostProcess(y);
      var k :| 0 <= k < |dirs| && dirs[k] == y;
      assert PostProcessAll(dirs)[k] == x;
    }
  }

  /** A directory is a source path exactly when it is the post-processed
      form of a candidate of some mapped field the manifest holds. */
  lemma GetSourcePathsMembers(cfg: Config, m: Manifest, x: string)
    ensures x in GetSourcePaths(cfg, m) <==> exists y :: MappedCandidate(cfg, m, y) && x == PostProcess(y)
  {
    var dirs := CollectSourceDirs(cfg.mapPaths, m, cfg.ToolkitNames(), cfg.BuildIds());
    PostProcessAllMembers(dirs, x);
    forall y
      ensures y in dirs <==> MappedCandidate(cfg, m, y)
    {
      CollectMembers(cfg.mapPaths, m, cfg.ToolkitNames(), cfg.BuildIds(), y);
    }
  }

  /** Post-processing keeps a list of unmarked directories as it is. */
  lemma PostProcessAllUnmarked(dirs: seq<string>)
    requires forall k :: 0 <= k < |dirs| ==> !Contains(dirs[k], STAGE_DIR) && !Contains(dirs[k], PACKAGE_DIR)
    ensures PostProcessAll(dirs) == dirs
  {
  }

  /** A rules file mapping one field whose entries name no placeholder and
      no marker yields that field's entries with repeats removed, in order
      of first appearance. */
  lemma GetSourcePathsPlainField(cfg: Config, m: Manifest, path: string)
    requires cfg.mapPaths == [path] && path in m.fields
    requires forall k :: 0 <= k < |m.fields[path]| ==>
      !Contains(m.fields[path][k], TOOLKIT_NAME) && !Contains(m.fields[path][k], BUILD_ID)
      && !Contains(m.fields[path][k], STAGE_DIR) && !Contains(m.fields[path][k], PACKAGE_DIR)
    ensures GetSourcePaths(cfg, m) == Dedup(m.fields[path])
  {
    var v := m.fields[path];
    SinglePathNoPlaceholders(path, m, cfg.ToolkitNames(), cfg.BuildIds());
    forall k | 0 <= k < |Dedup(v)|
      ensures !Contains(Dedup(v)[k], STAGE_DIR) && !Contains(Dedup(v)[k], PACKAGE_DIR)
    {
      assert Dedup(v)[k] in v;
    }
    PostProcessAllUnmarked(Dedup(v));
  }
}

=== FILE: strings.dfy ===
/** The two JavaScript string primitives the path pipeline is built from:
    `s.indexOf(pat)` and `s.replace(pat, rpl)` with a string pattern, which
    replaces only the FIRST occurrence. Replacement strings are taken
    literally (no `$&`-style patterns). */
module Strings {
  import opened Wrappers

  /** `pat` occurs in `s` starting at index `i`. */
  predicate OccursAt(s: string, pat: string, i: int) {
    0 <= i && i + |pat| <= |s| && s[i..i + |pat|] == pat
  }

  /** `pat` occurs nowhere in `s`. */
  ghost predicate Absent(s: string, pat: string) {
    forall j :: !OccursAt(s, pat, j)
  }

  /** Shifting by one character: an occurrence at `j + 1` in `s` is an occurrence at `j` in `s[1..]`. */
  lemma OccursAtTail(s: string, pat: string)
    requires |s| > 0
    ensures forall j :: 1 <= j ==> (OccursAt(s, pat, j) <==> OccursAt(s[1..], pat, j - 1))
  {
    forall j | 1 <= j
      ensures OccursAt(s, pat, j) <==> OccursAt(s[1..], pat, j - 1)
    {
      if j + |pat| <= |s| {
        assert s[1..][j - 1..j - 1 + |pat|] == s[j..j + |pat|];
      }
    }
  }

  /** JavaScript's `s.indexOf(pat)`: the least index at which `pat` occurs,
      or None where JavaScript answers -1. */
  function Find(s: string, pat: string): (r: Option<nat>)
    ensures r.Some? ==> OccursAt(s, pat, r.value)
    ensures r.Some? ==> forall j :: 0 <= j < r.value ==> !OccursAt(s, pat, j)
    ensures r.None? <==> Absent(s, pat)
    decreases |s|
  {
    if |s| < |pat| then None
    else if s[..|pat|] == pat then Some(0)
    else
      OccursAtTail(s, pat);
      match Find(s[1..], pat)
      case None => None
      case Some(k) => Some(k + 1)
  }

  /** `s.indexOf(pat) !== -1` */
  predicate Contains(s: string, pat: string) {
    Find(s, pat).Some?
  }

  /** JavaScript's `s.replace(pat, rpl)` for a string `pat`: the first
      occurrence of `pat` becomes `rpl`; a string without `pat` is returned as is. */
  function ReplaceFirst(s: string, pat: string, rpl: string): (r: string)
    ensures !Contains(s, pat) ==> r == s
    ensures Contains(s, pat) ==> |r| == |s| - |pat| + |rpl|
  {
    match Find(s, pat)
    case None => s
    case Some(i) => s[..i] + rpl + s[i + |pat|..]
  }

  /** The pieces around the first occurrence: everything before it and
      everything after it survive `ReplaceFirst`, and `s` is exactly those
      pieces around `pat`. */
  lemma ReplaceFirstAt(s: string, pat: string, rpl: string, i: nat)
    requires Find(s, pat) == Some(i)
    ensures s == s[..i] + pat + s[i + |pat|..]
    ensures ReplaceFirst(s, pat, rpl) == s[..i] + rpl + s[i + |pat|..]
  {
  }

  /** When `b` starts with `pat`, whose first character occurs nowhere else in
      it, and `a` has no occurrence, the first occurrence in `a + b` is at `|a|`. */
  lemma {:induction false} FindAtJoin(a: string, b: string, pat: string)
    requires Absent(a, pat)
    requires |pat| > 0 && forall k :: 0 < k < |pat| ==> pat[k] != pat[0]
    requires OccursAt(b, pat, 0)
    ensures Find(a + b, pat) == Some(|a|)
  {
    assert (a + b)[|a|..|a| + |pat|] == b[..|pat|];
    assert OccursAt(a + b, pat, |a|);
    forall j | 0 <= j < |a|
      ensures !OccursAt(a + b, pat, j)
    {
      if j + |pat| <= |a| {
        assert (a + b)[j..j + |pat|] == a[j..j + |pat|];
        assert !OccursAt(a, pat, j);
      } else if j + |pat| <= |a + b| {
        assert (a + b)[j..j + |pat|][|a| - j] == b[0] == pat[0] != pat[|a| - j];
      }
    }
  }

  /** A string that starts with `pat` finds it at index 0. */
  lemma FindAtStart(a: string, b: string)
    ensures Find(a + b, a) == Some(0)
  {
    assert (a + b)[..|a|] == a;
  }

  /** No occurrence in `s` means no occurrence in any of its prefixes. */
  lemma AbsentPrefix(s: string, pat: string, n: nat)
    requires n <= |s|
    requires Absent(s, pat)
    ensures Absent(s[..n], pat)
  {
    forall j
      ensures !OccursAt(s[..n], pat, j)
    {
      if 0 <= j && j + |pat| <= n {
        assert s[..n][j..j + |pat|] == s[j..j + |pat|];
        assert !OccursAt(s, pat, j);
      }
    }
  }

  /** `JS replace` touches nothing but the first occurrence: an occurrence of
      `q` in `s` that does not overlap the first `pat` survives in the result. */
  lemma ReplaceFirstKeepsDisjoint(s: string, pat: string, rpl: string, q: string, i: nat, k: nat)
    requires Find(s, pat) == Some(i)
    requires OccursAt(s, q, k)
    requires k + |q| <= i || i + |pat| <= k
    ensures Contains(ReplaceFirst(s, pat, rpl), q)
  {
    ReplaceFirstAt(s, pat, rpl, i);
    if k + |q| <= i {
      OccursBeforeSplice(s, i, rpl + s[i + |pat|..], q, k);
      SeqAssoc(s[..i], rpl, s[i + |pat|..]);
      OccursContains(ReplaceFirst(s, pat, rpl), q, k);
    } else {
      OccursAfterSplice(s, s[..i] + rpl, i + |pat|, q, k);
      OccursContains(ReplaceFirst(s, pat, rpl), q, |s[..i] + rpl| + k - i - |pat|);
    }
  }

  /** Concatenation regroups freely. */
  lemma SeqAssoc<T>(x: seq<T>, y: seq<T>, z: seq<T>)
    ensures x + (y + z) == (x + y) + z
  {
  }

  /** The prefix through an occurrence ends with the pattern. */
  lemma PrefixThrough(s: string, pat: string, p: nat)
    requires OccursAt(s, pat, p)
    ensures s[..p + |pat|] == s[..p] + pat
  {
  }

  /** A pattern placed between two strings occurs right after the first. */
  lemma OccursInMiddle(a: string, pat: string, b: string)
    ensures OccursAt(a + pat + b, pat, |a|)
  {
    assert (a + pat + b)[|a|..|a| + |pat|] == pat;
  }

  /** An occurrence that ends by `n` survives replacing what follows `n`. */
  lemma OccursBeforeSplice(s: string, n: nat, tail: string, q: string, k: nat)
    requires k + |q| <= n <= |s| && OccursAt(s, q, k)
    ensures OccursAt(s[..n] + tail, q, k)
  {
    assert (s[..n] + tail)[k..k + |q|] == s[k..k + |q|];
  }

  /** An occurrence that starts at or after `n` survives replacing what precedes `n`. */
  lemma OccursAfterSplice(s: string, head: string, n: nat, q: string, k: nat)
    requires n <= k && OccursAt(s, q, k)
    ensures OccursAt(head + s[n..], q, |head| + k - n)
  {
    SliceRight(head, s[n..], k - n, |q|);
    SliceOfSuffix(s, n, k - n, |q|);
  }

  /** A slice of the right half of a join is a slice of the join. */
  lemma SliceRight(a: string, b: string, m: nat, len: nat)
    requires m + len <= |b|
    ensures (a + b)[|a| + m..|a| + m + len] == b[m..m + len]
  {
  }

  /** A slice of a suffix is a slice of the whole. */
  lemma SliceOfSuffix(s: string, n: nat, m: nat, len: nat)
    requires n + m + len <= |s|
    ensures s[n..][m..m + len] == s[n + m..n + m + len]
  {
  }

  /** An occurrence means `indexOf` does not answer -1. */
  lemma OccursContains(s: string, pat: string, i: int)
    requires OccursAt(s, pat, i)
    ensures Contains(s, pat)
  {
  }

  /** Appending a character the pattern does not use creates no occurrence. */
  lemma AbsentExtend(a: string, c: char, pat: string)
    requires Absent(a, pat) && |pat| > 0
    requires forall k :: 0 <= k < |pat| ==> pat[k] != c
    ensures Absent(a + [c], pat)
  {
    forall j | 0 <= j && j + |pat| <= |a| + 1
      ensures !OccursAt(a + [c], pat, j)
    {
      if j + |pat| <= |a| {
        assert (a + [c])[j..j + |pat|] == a[j..j + |pat|];
        assert !OccursAt(a, pat, j);
      } else {
        assert (a + [c])[j..j + |pat|][|a| - j] == c != pat[|a| - j];
      }
    }
  }

  /** The text around a pattern placed between two pieces. */
  lemma CutMiddle(a: string, pat: string, b: string)
    ensures (a + pat + b)[..|a|] == a && (a + pat + b)[|a| + |pat|..] == b
  {
    SeqAssoc(a, pat, b);
    Slices(a, pat + b);
    Slices(a + pat, b);
  }

  /** Joining two texts free of the pattern creates no occurrence when the
      second starts with a character the pattern does not use. */
  lemma AbsentJoin(a: string, b: string, pat: string)
    requires Absent(a, pat) && Absent(b, pat)
    requires |b| > 0 && forall k :: 0 <= k < |pat| ==> pat[k] != b[0]
    ensures Absent(a + b, pat)
  {
    forall j | 0 <= j && j + |pat| <= |a| + |b|
      ensures !OccursAt(a + b, pat, j)
    {
      if j + |pat| <= |a| {
        assert (a + b)[j..j + |pat|] == a[j..j + |pat|];
        assert !OccursAt(a, pat, j);
      } else if j >= |a| {
        assert (a + b)[j..j + |pat|] == b[j - |a|..j - |a| + |pat|];
        assert !OccursAt(b, pat, j - |a|);
      } else {
        assert (a + b)[j..j + |pat|][|a| - j] == b[0] != pat[|a| - j];
      }
    }
  }

  /** A text without the pattern's first character holds no occurrence. */
  lemma AbsentWithoutFirst(s: string, pat: string)
    requires |pat| > 0 && forall i :: 0 <= i < |s| ==> s[i] != pat[0]
    ensures Absent(s, pat)
  {
    forall j | 0 <= j && j + |pat| <= |s|
      ensures !OccursAt(s, pat, j)
    {
      assert s[j..j + |pat|][0] == s[j];
    }
  }

  /** Prepending a character other than the pattern's first creates no occurrence. */
  lemma AbsentPrepend(c: char, s: string, pat: string)
    requires Absent(s, pat)
    requires |pat| > 0 && pat[0] != c
    ensures Absent([c] + s, pat)
  {
    OccursAtTail([c] + s, pat);
    assert ([c] + s)[1..] == s;
    forall j ensures !OccursAt([c] + s, pat, j) {
      if j >= 1 {
        assert !OccursAt(s, pat, j - 1);
      }
    }
  }

  /** Before the first occurrence there is none. */
  lemma AbsentBeforeFirst(s: string, pat: string, p: nat)
    requires Find(s, pat) == Some(p) && |pat| > 0
    ensures Absent(s[..p], pat)
  {
    forall j | 0 <= j && j + |pat| <= p
      ensures !OccursAt(s[..p], pat, j)
    {
      assert s[..p][j..j + |pat|] == s[j..j + |pat|];
      assert !OccursAt(s, pat, j);
    }
  }

  /** A string without `pat` has no longer pattern starting with `pat` either. */
  lemma AbsentLonger(s: string, pat: string, more: string)
    requires Absent(s, pat)
    ensures Absent(s, pat + more)
  {
    forall j | 0 <= j && j + |pat + more| <= |s|
      ensures !OccursAt(s, pat + more, j)
    {
      assert s[j..j + |pat + more|][..|pat|] == s[j..j + |pat|];
      assert (pat + more)[..|pat|] == pat;
      assert !OccursAt(s, pat, j);
    }
  }

  /** A string is its prefix followed by the matching suffix. */
  lemma SplitAt(s: string, n: nat)
    requires n <= |s|
    ensures s[..n] + s[n..] == s
  {
  }

  /** The two halves of a join are its slices at the join point. */
  lemma Slices(a: string, b: string)
    ensures (a + b)[..|a|] == a && (a + b)[|a|..] == b
  {
  }

  /** An occurrence fixes every character it covers. */
  lemma OccursAtChar(s: string, pat: string, i: int, k: int)
    requires OccursAt(s, pat, i) && 0 <= k < |pat|
    ensures s[i + k] == pat[k]
  {
    assert s[i..i + |pat|][k] == s[i + k];
  }

  /** No occurrence in `s` means none in its tail. */
  lemma AbsentTail(s: string, pat: string)
    requires |s| > 0 && Absent(s, pat)
    ensures Absent(s[1..], pat)
  {
    OccursAtTail(s, pat);
    forall j ensures !OccursAt(s[1..], pat, j) {
      if 0 <= j {
        assert !OccursAt(s, pat, j + 1);
      }
    }
  }

  /** An occurrence in `[c] + u` is at its start or in `u`. */
  lemma AbsentCons(c: char, u: string, pat: string)
    requires Absent(u, pat) && !OccursAt([c] + u, pat, 0)
    ensures Absent([c] + u, pat)
  {
    OccursAtTail([c] + u, pat);
    assert ([c] + u)[1..] == u;
    forall j ensures !OccursAt([c] + u, pat, j) {
      if 1 <= j {
        assert !OccursAt(u, pat, j - 1);
      }
    }
  }
}

=== FILE: unify.dfy ===
/** Separator normalisation. The tool calls `l8.unify(dir, "/")` from a
    library that is not part of this model; the model assumes that it
    turns every run of consecutive `/` into a single `/` and changes
    nothing else. */
module Separators {
  import opened Strings

  /** A separator at `i` directly followed by another. */
  predicate DoubleAt(s: string, i: int) {
    0 <= i < |s| - 1 && s[i] == '/' && s[i + 1] == '/'
  }

  /** No two adjacent separators. */
  predicate NoDoubleSlash(s: string) {
    forall i :: 0 <= i < |s| ==> !DoubleAt(s, i)
  }

  /** No separator at all. */
  predicate NoSlash(s: string) {
    forall i :: 0 <= i < |s| ==> s[i] != '/'
  }

  /** The characters of `s` other than `/`, in order. */
  function NonSlash(s: string): string {
    if |s| == 0 then [] else (if s[0] == '/' then [] else [s[0]]) + NonSlash(s[1..])
  }

  /** `l8.unify(s, "/")`, assumed: collapse every run of `/` into one. The
      result starts with the same character as `s` and is no longer;
      `UnifyKeepsNonSlash` shows every other character survives in order and
      `UnifyNoDoubleSlash` that no doubled separator is left. */
  function Unify(s: string): (r: string)
    ensures |s| > 0 ==> |r| > 0 && r[0] == s[0]
    ensures |r| <= |s|
    decreases |s|
  {
    if |s| == 0 then s
    else if |s| >= 2 && s[0] == '/' && s[1] == '/' then Unify(s[1..])
    else [s[0]] + Unify(s[1..])
  }

  /** Unification drops separators only: the other characters stay, in order. */
  lemma {:induction false} UnifyKeepsNonSlash(s: string)
    ensures NonSlash(Unify(s)) == NonSlash(s)
    decreases |s|
  {
    if |s| > 0 {
      UnifyKeepsNonSlash(s[1..]);
      if !(|s| >= 2 && s[0] == '/' && s[1] == '/') {
        var u := Unify(s[1..]);
        var r := [s[0]] + u;
        assert r[1..] == u;
      }
    }
  }

  /** Unification leaves no two separators next to each other. */
  lemma {:induction false} UnifyNoDoubleSlash(s: string)
    ensures NoDoubleSlash(Unify(s))
    decreases |s|
  {
    if |s| > 0 {
      var u := Unify(s[1..]);
      UnifyNoDoubleSlash(s[1..]);
      UnifyCons(s[0], s[1..]);
      assert [s[0]] + s[1..] == s;
      if !(|s| >= 2 && s[0] == '/' && s[1] == '/') {
        var r := [s[0]] + u;
        forall i | 0 <= i < |r|
          ensures !DoubleAt(r, i)
        {
          if i > 0 {
            assert !DoubleAt(u, i - 1);
          }
        }
      }
    }
  }

  /** A string that is already unified is left alone. */
  lemma {:induction false} UnifyIdentity(s: string)
    requires NoDoubleSlash(s)
    ensures Unify(s) == s
    decreases |s|
  {
    if |s| > 0 {
      forall i | 0 <= i < |s| - 1
        ensures !DoubleAt(s[1..], i)
      {
        assert !DoubleAt(s, i + 1);
      }
      assert !DoubleAt(s, 0);
      UnifyIdentity(s[1..]);
      UnifyCons(s[0], s[1..]);
      assert [s[0]] + s[1..] == s;
    }
  }

  /** Unifying twice is unifying once. */
  lemma UnifyIdempotent(s: string)
    ensures Unify(Unify(s)) == Unify(s)
  {
    UnifyNoDoubleSlash(s);
    UnifyIdentity(Unify(s));
  }

  /** One step of unification, seen from the first character. */
  lemma UnifyCons(c: char, x: string)
    ensures Unify([c] + x) == if c == '/' && |x| > 0 && x[0] == '/' then Unify(x) else [c] + Unify(x)
  {
    assert ([c] + x)[1..] == x;
  }

  /** Unification distributes over a join that does not put two separators
      next to each other. */
  lemma {:induction false} UnifyConcat(a: string, b: string)
    requires |a| == 0 || |b| == 0 || a[|a| - 1] != '/' || b[0] != '/'
    ensures Unify(a + b) == Unify(a) + Unify(b)
    decreases |a|
  {
    if |a| == 0 {
      assert a + b == b;
    } else {
      var c, a' := a[0], a[1..];
      ConsSplit(a, b);
      if |a'| == 0 {
        assert a' + b == b;
        UnifyCons(c, b);
        UnifyCons(c, []);
      } else {
        assert a'[|a'| - 1] == a[|a| - 1];
        UnifyConcat(a', b);
        UnifyConsConcat(c, a', b);
      }
    }
  }

  /** A non-empty prefix is the first character followed by a prefix of the tail. */
  lemma HeadSplit(s: string, n: nat)
    requires 0 < n <= |s|
    ensures s[..n] == [s[0]] + s[1..][..n - 1]
  {
  }

  /** A non-empty string is its first character followed by the rest, also
      when something follows. */
  lemma ConsSplit(a: string, b: string)
    requires |a| > 0
    ensures a == [a[0]] + a[1..] && a + b == [a[0]] + (a[1..] + b)
  {
  }

  /** The inductive step of `UnifyConcat`: putting one character in front. */
  lemma UnifyConsConcat(c: char, a': string, b: string)
    requires |a'| > 0
    requires Unify(a' + b) == Unify(a') + Unify(b)
    ensures Unify([c] + (a' + b)) == Unify([c] + a') + Unify(b)
  {
    assert (a' + b)[0] == a'[0];
    UnifyCons(c, a' + b);
    UnifyCons(c, a');
    if !(c == '/' && a'[0] == '/') {
      SeqAssoc([c], Unify(a'), Unify(b));
    }
  }

  /** A doubled leading separator is dropped. */
  lemma UnifySlashSlash(b: string)
    ensures Unify("/" + "/" + b) == Unify("/" + b)
  {
    assert ("/" + "/" + b)[1..] == "/" + b;
  }

  /** A separator in front of an already unified string that starts with one
      is absorbed. */
  lemma UnifyLeadingSlash(x: string)
    requires |x| > 0 && x[0] == '/' && NoDoubleSlash(x)
    ensures Unify("/" + x) == x
  {
    assert ("/" + x)[1..] == x;
    UnifyIdentity(x);
  }

  /** Up to the first separator of the result, unification changed nothing. */
  lemma {:induction false} UnifyPrefix(t: string, k: nat)
    requires k <= |Unify(t)|
    requires forall i :: 0 <= i < k ==> Unify(t)[i] != '/'
    ensures k <= |t| && t[..k] == Unify(t)[..k]
    decreases |t|
  {
    if k > 0 {
      assert t[0] == Unify(t)[0] != '/';
      var u := Unify(t[1..]);
      assert Unify(t) == [t[0]] + u;
      forall i | 0 <= i < k - 1
        ensures u[i] != '/'
      {
        assert u[i] == Unify(t)[i + 1];
      }
      UnifyPrefix(t[1..], k - 1);
      assert t[..k] == [t[0]] + t[1..][..k - 1];
      assert Unify(t)[..k] == [t[0]] + u[..k - 1];
    }
  }

  /** Removing separators cannot create an occurrence of a separator-free
      pattern: what is absent before unification is absent after it. */
  lemma {:induction false} UnifyKeepsAbsent(s: string, pat: string)
    requires NoSlash(pat)
    requires Absent(s, pat)
    ensures Absent(Unify(s), pat)
    decreases |s|
  {
    if |s| > 0 {
      var t := s[1..];
      AbsentTail(s, pat);
      UnifyKeepsAbsent(t, pat);
      if !(|s| >= 2 && s[0] == '/' && s[1] == '/') {
        assert Unify(s) == [s[0]] + Unify(t);
        UnifyHeadAbsent(s, pat);
        AbsentCons(s[0], Unify(t), pat);
      }
    }
  }

  /** Where `s` does not start with a separator-free `pat` and does not start
      with a doubled separator, neither does its normal form. */
  lemma UnifyHeadAbsent(s: string, pat: string)
    requires NoSlash(pat) && |s| > 0 && !(|s| >= 2 && s[0] == '/' && s[1] == '/')
    requires !OccursAt(s, pat, 0)
    ensures !OccursAt(Unify(s), pat, 0)
  {
    var t := s[1..];
    var u := Unify(t);
    var r := Unify(s);
    assert r[0] == s[0] && r[1..] == u by {
      assert r == [s[0]] + u;
    }
    if |pat| <= |r| && |pat| > 0 {
      var m := |pat| - 1;
      assert (forall i :: 0 <= i < m ==> r[1..][i] != '/') ==> m <= |t| && t[..m] == r[1..][..m] by {
        if forall i :: 0 <= i < m ==> u[i] != '/' {
          UnifyPrefix(t, m);
        }
      }
      HeadMismatch(s, r, pat);
    }
  }

  /** The combinatorial core of `UnifyHeadAbsent`: `r` and `s` share their
      first character, and the next `|pat| - 1` characters of `r` either
      contain a separator, which `pat` lacks, or agree with those of `s`. */
  lemma HeadMismatch(s: string, r: string, pat: string)
    requires NoSlash(pat) && 0 < |pat| <= |r| && |s| > 0 && s[0] == r[0]
    requires !OccursAt(s, pat, 0)
    requires (forall i :: 0 <= i < |pat| - 1 ==> r[1..][i] != '/')
             ==> |pat| - 1 <= |s| - 1 && s[1..][..|pat| - 1] == r[1..][..|pat| - 1]
    ensures !OccursAt(r, pat, 0)
  {
    var m := |pat| - 1;
    if forall i :: 0 <= i < m ==> r[1..][i] != '/' {
      HeadSplit(s, |pat|);
      HeadSplit(r, |pat|);
    } else {
      var i :| 0 <= i < m && r[1..][i] == '/';
      assert r[i + 1] == '/';
      assert r[..|pat|][i + 1] == r[i + 1];
    }
  }

  /** A string without separators has no doubled separator. */
  lemma NoSlashNoDouble(s: string)
    requires NoSlash(s)
    ensures NoDoubleSlash(s)
  {
  }

  /** Every prefix of a unified string is unified. */
  lemma NoDoubleSlashPrefix(s: string, n: nat)
    requires n <= |s| && NoDoubleSlash(s)
    ensures NoDoubleSlash(s[..n])
  {
    forall i | 0 <= i < n
      ensures !DoubleAt(s[..n], i)
    {
      assert !DoubleAt(s, i);
    }
  }

  /** Every suffix of a unified string is unified. */
  lemma NoDoubleSlashSuffix(s: string, n: nat)
    requires n <= |s| && NoDoubleSlash(s)
    ensures NoDoubleSlash(s[n..])
  {
    forall i | 0 <= i < |s| - n
      ensures !DoubleAt(s[n..], i)
    {
      assert !DoubleAt(s, n + i);
    }
  }

  /** A separator in front of a unified string that does not start with one
      keeps it unified. */
  lemma NoDoubleSlashCons(s: string)
    requires NoDoubleSlash(s) && (|s| == 0 || s[0] != '/')
    ensures NoDoubleSlash("/" + s)
  {
    forall i | 0 <= i < |s| + 1
      ensures !DoubleAt("/" + s, i)
    {
      if i > 0 {
        assert !DoubleAt(s, i - 1);
      }
    }
  }

  /** Two separator-free names joined by one separator are already unified. */
  lemma UnifySlashJoin(a: string, b: string)
    requires NoSlash(a) && NoSlash(b)
    ensures Unify(a + "/" + b) == a + "/" + b
  {
    var s := a + "/" + b;
    forall i | 0 <= i < |s|
      ensures !DoubleAt(s, i)
    {
      if i == |a| && i + 1 < |s| {
        assert s[i + 1] == b[0];
      } else if i > |a| {
        assert s[i] == b[i - |a| - 1];
      }
    }
    UnifyIdentity(s);
  }

  /** A unified piece that neither starts nor ends with a separator splits
      normalisation into the parts before and after it. */
  lemma UnifyAround(x: string, a: string, rest: string)
    requires |a| > 0 && a[0] != '/' && a[|a| - 1] != '/' && Unify(a) == a
    ensures Unify(x + a + rest) == Unify(x) + a + Unify(rest)
  {
    UnifyConcat(a, rest);
    UnifyConcat(x, a + rest);
    assert x + a + rest == x + (a + rest);
    assert Unify(x) + (a + Unify(rest)) == Unify(x) + a + Unify(rest);
  }

  /** A separator in front of a string that already starts with one is
      absorbed. */
  lemma UnifyDropSlash(b: string)
    requires |b| > 0 && b[0] == '/'
    ensures Unify("/" + b) == Unify(b)
  {
    assert ("/" + "/") + b[1..] == "/" + b;
    UnifySlashSlash(b[1..]);
    assert "/" + b[1..] == b;
  }

  /** Joining a unified head and a unified tail that starts with a separator
      by one more separator keeps only the tail's. */
  lemma UnifyJoinUnified(x: string, y: string)
    requires |x| > 0 && x[|x| - 1] != '/' && Unify(x) == x
    requires |y| > 0 && y[0] == '/' && NoDoubleSlash(y)
    ensures Unify(x + "/" + y) == x + y
  {
    SeqAssoc(x, "/", y);
    UnifyConcat(x, "/" + y);
    UnifyLeadingSlash(y);
  }

  /** Normalisation keeps the last character. */
  lemma {:induction false} UnifyLast(s: string)
    requires |s| > 0
    ensures |Unify(s)| > 0 && Unify(s)[|Unify(s)| - 1] == s[|s| - 1]
    decreases |s|
  {
    if |s| > 1 {
      UnifyLast(s[1..]);
      assert s[1..][|s| - 2] == s[|s| - 1];
    }
  }

  /** Normalising the two halves of `a + b` separately and joining them with
      one more separator gives the normalised whole, when `b` already starts
      with a separator and `a` does not end with one. */
  lemma JoinBack(a: string, b: string)
    requires |a| > 0 && a[|a| - 1] != '/'
    requires |b| > 0 && b[0] == '/'
    ensures Unify(Unify(a) + "/" + Unify("/" + b)) == Unify(a + b)
  {
    UnifyLast(a);
    UnifyDropSlash(b);
    UnifyNoDoubleSlash(b);
    UnifyIdempotent(a);
    UnifyJoinUnified(Unify(a), Unify(b));
    UnifyConcat(a, b);
  }
}

=== FILE: wrappers.dfy ===
/** Optional values, used for lookups that may come back empty (JavaScript's
    `undefined`, `-1` from `indexOf`, or a falsy manifest field). */
module Wrappers {

  datatype Option<+T> = None | Some(value: T) {

    /** The wrapped value, or `default` when there is none (JavaScript's `x || default`). */
    function GetOr(default: T): T {
      match this
      case Some(v) => v
      case None => default
    }
  }
}
